=== FILE: README.md ===
# Driver emotion monitoring: a Dafny model

This project models the core of a Flask application that monitors drivers. It has two halves.

**The per-frame emotion pipeline** (`app/ai/emotion_detector.py`):
- A lazy loader keeps the Keras classifier and the Haar face cascade in two module globals.
- `analyze_frame` does the rest:
  - it takes a frame given as a data URL and picks the largest detected face;
  - it grows that face's box around its centre, squares it and clamps it to the image;
  - it shapes the crop for the classifier and turns the raw output into probabilities;
  - it returns the first most probable of the seven Italian emotion labels.
- The probabilities also map linearly onto stress, calm and focus scores.

**The driver registry**:
- `app/services.py` and `app/models.py` create, rename, delete and look up drivers. They switch a driver's monitoring status and record classifications.
- `app/utils.py` and `app/config.py` hold the validators, formatters and upload settings these rely on.

**How the model is built:**
- The vision and learning libraries become function-typed collaborators: base64 decoding with `imdecode`, `detectMultiScale`, `model.predict`, and `np.exp`, an abstract positive function.
- Pixel and probability arithmetic is over reals.
  - A numpy double is a `Float` datatype with NaN and the two infinities.
  - Python's `round` is round-half-to-even.
  - `round(x, 1)` is an integer number of tenths.
- The database is an in-memory `map` from id to `Driver` objects inside the class `Services.Registry`. New ids come from a counter.
- `str.title()` and `secure_filename(name.lower())` are abstract functions. The only thing assumed of `title` is that it maps the empty string, and only it, to the empty string.

**Form follows the source:**
- State the source changes step by step is imperative Dafny:
  - the loader's globals (`EmotionDetector.Detector`);
  - the driver rows (`Models.Driver`, `Models.MonitoringSession`);
  - the registry;
  - the loops and dictionary builders of `_expand_bbox`, `format_file_size`, `_get_neutral_emotion_data` and `ResponseUtils`.
- Each of these methods is proved against a pure specification function (`LoadStep`, `Analyze`, `Expanded`, `RenameStep`, …). The lemmas are stated about those functions.

**Where the model follows the code rather than the prose description:**
- `_to_probabilities` passes a vector through unchanged when its entries are only down to -1e-6 (not ≥ 0). The sum only needs to be within `1e-3 + 1e-5` of 1, because numpy's default relative tolerance adds to `atol`.
- `create_driver` only rejects blank names. The two-character minimum applies in `update_driver` alone.
- `classify_driver` adds two history records per classification. One is made inside `Driver.update_classification`, without a confidence. The other is the service's own, with the confidence.
- `update_driver` assigns the new first name before it checks the last name. A refused last name therefore leaves the new first name on the driver object (`Services.PartialRenameOnError`). The same holds for the names when the upload is refused.
- `_load_model_and_cascade` stores `_model` before any cascade is tried. When both cascades are empty, the globals are left half set while the returned pair is `(None, None)` (`EmotionDetector.LoadBothCascadesEmpty`).
- The loader's documentation promises the built-in cascade whenever the custom one fails. In the code, only a missing or empty custom cascade falls back. A custom cascade file whose `cv2.CascadeClassifier` constructor raises lands in the `except` clause. That returns `(None, None)` with `_model` already set, and the built-in cascade is never tried (`EmotionDetector.LoadCustomCascadeRaises`).

## Model

| member | source | states |
|---|---|---|
| Numeric.RoundHalfEven | app/ai/emotion_detector.py:186-189 | Python's `round`: the result is within 0.5 of the argument, and a tie goes to the even integer |
| Numeric.RoundOfInteger | app/ai/emotion_detector.py:188-189 | rounding an integer gives it back |
| Numeric.RoundWithin | app/ai/emotion_detector.py:302-308 | rounding never leaves an integer interval that holds the argument |
| Numeric.Trunc | app/utils.py:125 | `int(x)` truncates toward zero: within one of the argument, on the zero side |
| Numeric.Clamp | app/ai/emotion_detector.py:302-304 | `max(lo, min(hi, v))` lies in `[lo, hi]`; it is `v` inside the range and the nearer bound outside it |
| Numeric.FirstMaxIndex | app/ai/emotion_detector.py:159 | the index `max(..., key=...)` picks is maximal, and every earlier key is strictly smaller |
| Numeric.FirstMaxIndexUnique | app/ai/emotion_detector.py:390 | those two properties determine the index uniquely |
| Numeric.SliceIndex | app/ai/emotion_detector.py:219 | a Python slice bound lands in `[0, len]`: non-negative bounds are kept and negative ones count from the end |
| Text.TrimLeft | app/utils.py:38 | the result is a suffix of the input; it starts with non-whitespace and only whitespace was dropped |
| Text.TrimRight | app/utils.py:38 | the result is a prefix of the input; it ends with non-whitespace and only whitespace was dropped |
| Text.Strip | app/services.py:72-80 | `str.strip()` is a contiguous slice of the input that neither starts nor ends with whitespace; everything cut off on either side is whitespace |
| Text.StripEmptyIff | app/services.py:72-76 | a string strips to empty exactly when every character is whitespace |
| Text.LowerAscii | app/config.py:56 | upper-case ASCII letters become lower-case letters; every other character is kept |
| Text.Lower | app/config.py:56 | `str.lower()` maps each character by `LowerAscii` and keeps the length |
| Text.IndexOf | app/ai/emotion_detector.py:129 | the first position of a character, or -1 exactly when it is absent |
| Text.LastIndexOf | app/config.py:56 | the last position of a character, or -1 exactly when it is absent |
| Config.Extension | app/config.py:56 | `rsplit('.', 1)[1]` is the dot-free text after the last '.' |
| Config.ValidateFileExtension | app/config.py:45-56 | a name without '.' is refused; a name is accepted iff it ends in '.' and three characters that lower-case to "csv" |
| Config.EndsWithCsv | app/config.py:55-56 | "the text after the last dot lowers to an allowed extension" is equivalent to "the name ends in '.' plus a case-insensitive csv" |
| Config.ExtensionExamples | app/config.py:55-56 | "a.CSV" is accepted; "a.csv.exe", "a." and "csv" are refused |
| Config.UploadSettings | app/config.py:33-34 | the cap is 16777216 bytes and "csv" is the only allowed extension |
| Utils.MatchesNamePattern | app/utils.py:41-43 | the name regex matches iff the text is non-empty and every character is a name character |
| Utils.ValidateName | app/utils.py:28-43 | an empty name is invalid; a name is valid iff its stripped form has at least two characters, all letters, Latin-1 letters, whitespace, `'` or `-` |
| Utils.FileSizeLimit | app/utils.py:46-58 | with the 16 MB default a size passes iff it fits the upload cap; a smaller size or a larger limit keeps a pass a pass |
| Utils.ReplaceUnsafe | app/utils.py:72 | same length, no unsafe character left, and every other character kept in place |
| Utils.SplitExt | app/utils.py:75 | the stem and the extension concatenate to the name; the extension is empty or one '.' followed by dot-free text; it is non-empty exactly when some non-dot character comes before some '.' |
| Utils.SanitizeFilename | app/utils.py:61-79 | the sanitised name holds none of the nine unsafe characters (angle brackets, colon, double quote, both slashes, bar, question mark, asterisk) |
| Utils.SanitizeFilenameKeepsExtension | app/utils.py:75-79 | the output is exactly the first min(len(stem), 200) characters of the stem followed by the whole extension |
| Utils.SanitizeSafeFilename | app/utils.py:61-79 | a safe name whose stem has at most 200 characters comes back unchanged |
| Utils.FormatFileSize | app/utils.py:90-111 | the output is "0 B" iff the size is 0; otherwise value × 1024^unit = size, below GB the value is under 1024, and above B it is at least 1 |
| Utils.FloorMod | app/utils.py:127-133 | Python's float `%` by a positive divisor lies in `[0, d)` and completes floor division |
| Utils.FormatDuration | app/utils.py:114-133 | the "Ns" form below 60, "Mm Ss" below 3600 and "Hh Mm" otherwise, with minutes and seconds under 60 and the parts summing to the duration rounded down |
| Utils.FormatClassification | app/utils.py:155-175 | anything outside the four known values gets the grey "unknown" badge |
| Utils.KnownClassificationsDistinct | app/utils.py:165-170 | the four known values get four different badges, none of them "unknown" |
| Utils.RemoveTags | app/utils.py:235 | removing tags never lengthens the text |
| Utils.RemoveTagsKeepsText | app/utils.py:235 | text with no '<' is kept as it is, and removal carries on after it |
| Utils.RemoveTagsDropsTag | app/utils.py:235 | '<', text without '>', then '>' is removed whole, and removal carries on after it |
| Utils.RemoveTagsWithoutClose | app/utils.py:235 | text with no '>' is returned unchanged, an unclosed '<' included |
| Utils.RemoveControl | app/utils.py:238 | no character in 0x00-0x1F or 0x7F remains, and the text gets no longer |
| Utils.RemoveControlAppend | app/utils.py:238 | removal works character by character: it distributes over concatenation, so the kept characters stay in order |
| Utils.RemoveControlChar | app/utils.py:238 | a single character is dropped exactly when it is a control character |
| Utils.SanitizeInput | app/utils.py:220-243 | empty input gives ""; the output is at most `max_length` long and holds no control character |
| Utils.RemoveTagsLeavesNoTag | app/utils.py:235 | after tag removal no '<' is followed later by a '>' |
| Utils.RemoveControlKeepsNoTag | app/utils.py:238 | dropping control characters keeps that property and adds no character |
| Utils.SanitizeInputLeavesNoTag | app/utils.py:231-243 | the sanitised text holds no '<' followed later by a '>' |
| Utils.SanitizeCleanInput | app/utils.py:231-243 | text with no '<', no control character and no surrounding whitespace, within the limit, is returned unchanged |
| Utils.SuccessResponse | app/utils.py:375-398 | success=True and the status are always present; 'data' is present iff data is given, 'message' iff the message is non-empty; no other key |
| Utils.ErrorResponse | app/utils.py:401-421 | success=False, the error and the status are always present; 'details' is present iff details are given; no other key |
| Models.EnumTextsDistinct | app/models.py:16-43 | the enumerations' `__str__` texts are distinct, so each value can be read back |
| Models.EveryClassificationHasBadge | app/models.py:16-29 | every classification text has its own badge in the style table, never the unknown one |
| Models.ToDict | app/models.py:277-286 | 'oldClassification' is None iff the old classification is unset, otherwise its text; the other fields are copied |
| Models.ToDictInjective | app/models.py:277-286 | two records with the same dictionary are the same record |
| Models.Driver.constructor | app/models.py:98-114 | a new driver is unclassified, offline and without a simulation file unless told otherwise; its id is unset |
| Models.Driver.FullName | app/models.py:116-123 | the full name is the first name, one space, then the last name |
| Models.FullNameSplits | app/models.py:123 | the full name splits back into the two names around the space |
| Models.Driver.UpdateClassification | app/models.py:143-160 | sets the classification and update time and returns the record (old value, new value, no confidence); nothing else changes |
| Models.Driver.UpdateMonitoringStatus | app/models.py:162-170 | sets the status and update time only |
| Models.MonitoringSession.constructor | app/models.py:311-325 | the status is "active" unless given, and the session has not ended |
| Models.MonitoringSession.EndSession | app/models.py:327-330 | sets the end time and the status "completed"; the duration becomes end minus start |
| Models.MonitoringSession.Duration | app/models.py:332-341 | the duration is None iff the session has not ended, otherwise start + duration = end |
| FaceGeometry.Areas | app/ai/emotion_detector.py:159 | the area key of every detected rectangle |
| FaceGeometry.LargestFace | app/ai/emotion_detector.py:157-160 | None iff nothing was detected; otherwise a detected rectangle of maximal area, the first one on ties |
| FaceGeometry.DetectLargestFace | app/ai/emotion_detector.py:145-167 | a detector that raised gives None; otherwise the largest face |
| FaceGeometry.Expanded | app/ai/emotion_detector.py:169-198 | the corner is never negative, and the size is never above the rounded grown size |
| FaceGeometry.ExpandBox | app/ai/emotion_detector.py:169-198 | the box the method computes equals `Expanded` and lies right of and below the origin and within the right and bottom borders |
| FaceGeometry.ExpandedWithinBorders | app/ai/emotion_detector.py:191-198 | the expanded box has x, y ≥ 0, x + w ≤ image width and y + h ≤ image height, for any input box |
| FaceGeometry.ExpandedClipsWithoutWidening | app/ai/emotion_detector.py:186-196 | the output is never larger than the rounded size; a left or top clip moves the edge to 0 without widening the box |
| FaceGeometry.GrownBoxStartsInside | app/ai/emotion_detector.py:176-189 | a non-empty in-image box grown by a non-negative margin starts inside the image and rounds to at least one pixel |
| FaceGeometry.ExpandedStaysInside | app/ai/emotion_detector.py:169-198 | a non-empty in-image box stays non-empty and inside the image after expansion |
| FaceGeometry.UnscaledBoxUnchanged | app/ai/emotion_detector.py:176-189 | with margin 0 and no squaring, rounding reproduces an integer box |
| FaceGeometry.ExpandedUnscaledIsIdentity | app/ai/emotion_detector.py:176-198 | with margin 0 and `make_square` false an in-image box comes back unchanged |
| FaceGeometry.ExpandedIdempotent | app/ai/emotion_detector.py:169-198 | a second expansion with margin 0 and no squaring leaves an expanded box unchanged |
| FaceGeometry.ExpandedSquare | app/ai/emotion_detector.py:179-189 | squared and not cut by a border, both sides are `round(max(w, h) · (1 + margin))` |
| Probabilities.Reals | app/ai/emotion_detector.py:260 | the finite entries as reals, position by position |
| Probabilities.ShiftedExps | app/ai/emotion_detector.py:266-267 | one shifted exponential per entry |
| Probabilities.Uniform | app/ai/emotion_detector.py:270 | the uniform fallback has one entry per input entry |
| Probabilities.Softmax | app/ai/emotion_detector.py:265-271 | the softmax branch keeps the length |
| Probabilities.Normalize | app/ai/emotion_detector.py:258-273 | None iff the array is empty; otherwise the same length, and an input that already looks like a distribution is returned unchanged |
| Probabilities.ToProbabilities | app/ai/emotion_detector.py:252-273 | a vector is normalised as it is; a non-empty batch gives exactly the normalisation of row 0, and an empty batch or empty row gives None |
| Probabilities.FSumFinite | app/ai/emotion_detector.py:268 | `np.sum` is a number iff every entry is, and then it is the real sum |
| Probabilities.UniformIsDistribution | app/ai/emotion_detector.py:270 | the uniform fallback is non-negative and sums to 1 |
| Probabilities.FMaxKind | app/ai/emotion_detector.py:266 | `np.max` is NaN when an entry is NaN, +inf when one is +inf, -inf only when all are, and otherwise a finite value that is one of the entries and at least every finite entry |
| Probabilities.SoftmaxDenominatorPositive | app/ai/emotion_detector.py:266-269 | for finite input the softmax denominator is a positive number |
| Probabilities.DegenerateInputGivesUniform | app/ai/emotion_detector.py:266-270 | a NaN, a +inf, or nothing but -inf gives the uniform fallback |
| Probabilities.SoftmaxIsDistribution | app/ai/emotion_detector.py:265-271 | the softmax branch always gives non-negative entries summing to 1 |
| Probabilities.QuotientsAreDistribution | app/ai/emotion_detector.py:271 | non-negative values over their positive sum form a distribution |
| Probabilities.NormalizeGuarantee | app/ai/emotion_detector.py:262-271 | non-empty input: the input unchanged when it passes the test, otherwise a distribution; for all-finite input every entry is positive, given a strictly positive `exp` (underflow is left out) |
| Probabilities.SoftmaxPositive | app/ai/emotion_detector.py:266-271 | for finite input every softmax entry is positive, given a strictly positive `exp` (underflow is left out) |
| Probabilities.NormalizeNearDistribution | app/ai/emotion_detector.py:262-271 | every returned vector has entries ≥ -1e-6 and a sum within 1e-3 + 1e-5 of 1 |
| EmotionMetrics.Tenths | app/ai/emotion_detector.py:302-309 | the clamped, rounded score lies in [0, 100.0]: 0 for a non-positive score, 100.0 from 1 up, within half a tenth of score × 100 in between |
| EmotionMetrics.MapToMetrics | app/ai/emotion_detector.py:275-310 | all three metrics lie in [0, 100.0] |
| EmotionMetrics.MapValue | app/ai/emotion_detector.py:279-319 | a value that is not a dictionary, or a label holding a non-number, gives the fallback {25, 50, 50} |
| EmotionMetrics.GetEmotionMetrics | app/ai/emotion_detector.py:413-420 | None or a dictionary without 'probs' gives {25, 50, 50}; otherwise the mapping of 'probs' |
| EmotionMetrics.NeutralEmotionData | app/ai/emotion_detector.py:321-333 | the neutral result built step by step: emotion "Neutralita'", the probabilities `NeutralProbs`, no box, time 0 |
| EmotionMetrics.NeutralProbs | app/ai/emotion_detector.py:325-326 | the neutral probabilities: exactly the seven labels as keys, 1.0 on "Neutralita'" and 0.0 on the other six |
| EmotionMetrics.OnlyLabelsMatter | app/ai/emotion_detector.py:280-299 | only the seven labels are read; dictionaries that agree on them, a missing label counting as 0, map alike |
| EmotionMetrics.MissingLabelIsZero | app/ai/emotion_detector.py:281-298 | a missing label counts as probability 0 |
| EmotionMetrics.NeutralMetrics | app/ai/emotion_detector.py:280-310 | {Neutralita': 1} gives stress 0, calm 100, focus 80 |
| EmotionMetrics.NeutralDataMetrics | app/ai/emotion_detector.py:321-333 | the neutral result maps to stress 0, calm 100, focus 80 |
| EmotionMetrics.AngerMetrics | app/ai/emotion_detector.py:280-310 | {Rabbia: 1} gives stress 100, calm 0, and focus -50 clamped to 0 |
| EmotionMetrics.RecordMetrics | app/ai/emotion_detector.py:398-420 | the metrics of an analysis result are the mapping of its probabilities |
| EmotionDetector.Payload | app/ai/emotion_detector.py:127-131 | without the "data:image" prefix the whole string; with it, the text after the first ',' and None iff there is no ',' |
| EmotionDetector.DecodeFrame | app/ai/emotion_detector.py:123-143 | a string without the prefix is decoded whole; a prefixed string without ',' gives None |
| EmotionDetector.LoadStep | app/ai/emotion_detector.py:39-121 | the returned pair is what the globals hold, or (None, None); a freshly loaded cascade is usable and comes with the loaded model; the cascade global changes only to the returned pair |
| EmotionDetector.AnalyzeLoaded | app/ai/emotion_detector.py:350-403 | an undecodable frame gives None; an answer names one of the seven labels, carries the measured time and has exactly the seven labels as keys |
| EmotionDetector.Analyze | app/ai/emotion_detector.py:335-411 | the globals left behind are the loader's; an answer needs a loaded model and cascade |
| EmotionDetector.PayloadOfDataUrl | app/ai/emotion_detector.py:128-129 | a comma-free header, a comma, then any payload: the payload comes back whole, commas included |
| EmotionDetector.TargetOf | app/ai/emotion_detector.py:210-216 | a 4-tuple drops its batch entry, a 3-tuple is taken as is, and anything else is 224×224×3 |
| EmotionDetector.BatchEntryIgnored | app/ai/emotion_detector.py:211-214 | a shape with a batch entry selects the same size as the shape without it |
| EmotionDetector.Preprocess | app/ai/emotion_detector.py:200-250 | None iff the crop is empty or the target height or width is not a positive integer; otherwise a batch of one at the target size, with 1 channel iff C == 1, and scaled to [0, 1] iff the mode is not raw_bgr |
| EmotionDetector.DefaultShapeInput | app/ai/emotion_detector.py:215-243 | without a usable shape the input is one 224×224 RGB face in [0, 1] |
| EmotionDetector.CropOfInsideBox | app/ai/emotion_detector.py:218-219 | for a non-empty in-image box the crop is exactly the box |
| EmotionDetector.ProbsMap | app/ai/emotion_detector.py:387 | the dictionary has exactly the seven labels as keys, each with its own probability |
| EmotionDetector.Detector.constructor | app/ai/emotion_detector.py:28-29 | both globals start unset |
| EmotionDetector.Detector.Load | app/ai/emotion_detector.py:39-121 | the pair returned and the globals left behind are those of `LoadStep` on the old globals |
| EmotionDetector.Detector.AnalyzeFrame | app/ai/emotion_detector.py:335-411 | the result and the globals left behind are those of `Analyze` on the old globals |
| EmotionDetector.LoadReturnsBothOrNeither | app/ai/emotion_detector.py:50-106 | the returned pair is both set or both unset, a consistent state stays consistent, and a set pair is what the globals hold |
| EmotionDetector.LoadCached | app/ai/emotion_detector.py:50-51 | once both globals are set they are returned as they are, whatever the environment |
| EmotionDetector.LoadMissingModelFile | app/ai/emotion_detector.py:68-70 | a missing model file gives (None, None) and changes no global |
| EmotionDetector.LoadPrefersCustomCascade | app/ai/emotion_detector.py:79-85 | a present, usable custom cascade is used before the built-in one |
| EmotionDetector.LoadFallsBackToBuiltin | app/ai/emotion_detector.py:91-98 | a missing or empty custom cascade falls back to a usable built-in one |
| EmotionDetector.LoadCustomCascadeRaises | app/ai/emotion_detector.py:79-81 | a present custom cascade whose constructor raises gives (None, None) with `_model` stored, and a usable built-in cascade is not used |
| EmotionDetector.LoadBothCascadesEmpty | app/ai/emotion_detector.py:74-104 | with both cascades empty the result is (None, None), yet `_model` stays set: the globals are half set |
| EmotionDetector.LoadRecoversFromHalfSet | app/ai/emotion_detector.py:50-106 | from the half-set state, a later call whose custom cascade does not raise and whose built-in cascade is usable returns a full pair and stores it |
| EmotionDetector.AnalyzeNoneWithoutInputs | app/ai/emotion_detector.py:345-352 | a missing model or cascade, or a frame that does not decode, gives None |
| EmotionDetector.AnalyzeNoFaceIsNeutral | app/ai/emotion_detector.py:357-362 | without a face the neutral result is returned, with the measured time |
| EmotionDetector.AnalyzeDominantEmotion | app/ai/emotion_detector.py:386-403 | a result with a box has the seven labels, and its emotion is the first label, in label order, of maximal probability |
| EmotionDetector.ScoredFirstMostProbable | app/ai/emotion_detector.py:387-390 | the scored answer names the first most probable label |
| EmotionDetector.FirstMaxLabelMostProbable | app/ai/emotion_detector.py:387-390 | any label-keyed dictionary of the probabilities makes the first-maximum label the most probable one |
| EmotionDetector.AnalyzeBoxWithinFrame | app/ai/emotion_detector.py:365-393 | the reported box lies within the frame |
| EmotionDetector.AnalyzeRejectsWrongLength | app/ai/emotion_detector.py:378-384 | a probability vector whose length is not 7 gives None |
| EmotionDetector.AnalyzeNoneOnFailure | app/ai/emotion_detector.py:370-375 | failed preprocessing or prediction gives None |
| Services.Digits | app/services.py:455-458 | the timestamp text is non-empty and all digits |
| Services.DigitsValue | app/services.py:455-458 | the timestamp text is the decimal representation of the timestamp: read back, it gives the number |
| Services.ReplaceKeepsInjective | app/services.py:83-89 | giving one driver names no other driver has keeps the names unique |
| Services.CreateCheck | app/services.py:72-96 | blank first name, then blank last name, are refused first; with both names given, taken normalised names give `DuplicateName`, and the request passes exactly when the names are free and any upload is a CSV |
| Services.OthersIgnoresOwn | app/services.py:195-199 | the duplicate check's set of other drivers' names does not depend on the driver's own entry |
| Services.FirstNameStep | app/services.py:187-204 | a missing first name changes nothing; a blank one is FirstNameEmpty; under 2 characters is refused; success keeps the last name, stores the normalised first name, and the pair checked is no other driver's |
| Services.LastNameStep | app/services.py:206-223 | a missing last name changes nothing; an error changes nothing; a blank one is LastNameEmpty; under 2 characters is refused; success keeps the first name and the pair is no other driver's |
| Services.RenameStep | app/services.py:186-223 | missing arguments keep their fields; a short first name is refused with no change; a short last name is refused; a duplicate names another driver's pair; success stores both normalised names of length ≥ 2 |
| Services.RenameKeepsNamesUnique | app/services.py:194-223 | a successful rename of a driver whose names were unique leaves names no other driver has |
| Services.RenameToOwnNames | app/services.py:195-221 | renaming a driver to its own names succeeds and changes nothing: the duplicate check leaves the driver itself out |
| Services.PartialRenameOnError | app/services.py:204-211 | a refused last name after an accepted first name raises, yet leaves the new first name on the driver |
| Services.Registry.Table | app/services.py:83-86 | the name table has exactly the stored ids as keys |
| Services.Registry.StoredNameAccepted | app/services.py:455-458 | the stored `sim_<first>_<last>_<timestamp>.csv` name passes the extension check itself |
| Services.Registry.constructor | app/services.py:24-33 | the registry starts empty, with the counter at 1 |
| Services.Registry.GetDriverById | app/services.py:43-53 | a driver is returned iff the id is stored, and it is that driver |
| Services.Registry.CreateDriver | app/services.py:56-115 | refused with exactly the first failing check, changing nothing; otherwise one fresh unclassified, offline driver is stored under a new id, with the normalised names and the stored file name iff a file was given; names stay unique |
| Services.Registry.Insert | app/services.py:99-107 | the new driver is stored under the next id, with the given fields, and the counter moves on |
| Services.Registry.UpdateDriver | app/services.py:166-241 | unknown id is NotFound; otherwise the names and error are those of `RenameStep`, a non-CSV upload is refused, a given file is stored under the new names; classification and status are untouched; unique names stay unique |
| Services.Registry.RenameDriver | app/services.py:186-223 | the two name blocks together give the error and names of `RenameStep` |
| Services.Registry.RenameFirstName | app/services.py:187-204 | the first-name block gives the error or names of `FirstNameStep` and leaves the last name alone |
| Services.Registry.RenameLastName | app/services.py:206-223 | the last-name block gives the error and names of `LastNameStep` |
| Services.Registry.ReplaceSimulationFile | app/services.py:226-238 | a non-CSV upload is refused; a given file is stored under the driver's current names; nothing else changes |
| Services.Registry.SetFirstName | app/services.py:204 | assigns the first name only |
| Services.Registry.SetLastName | app/services.py:223 | assigns the last name only |
| Services.Registry.SetSimulationFile | app/services.py:235 | assigns the simulation file only |
| Services.Registry.DeleteDriver | app/services.py:142-163 | false and no change for an unknown id; otherwise exactly that driver and its history are removed and the result is true |
| Services.Registry.UpdateDriverMonitoringStatus | app/services.py:118-139 | unknown id is NotFound; otherwise only the status and update time change |
| Services.Registry.StartMonitoringSession | app/services.py:532-548 | unknown id is NotFound; otherwise the status becomes "In Corso" and nothing else but the update time changes |
| Services.Registry.StopMonitoringSession | app/services.py:551-567 | unknown id is NotFound; otherwise the status becomes "Online" and nothing else but the update time changes |
| Services.Registry.ClassifyDriver | app/services.py:260-306 | unknown id is NotFound and a driver without a simulation file is NoSimulationFile, with no change; a driver with a non-empty simulation file is classified: the classification and `updated_at` are set and exactly two records (without and with the confidence) are appended; on a refusal the classification and `updated_at` keep their values; names, status, simulation file and id never change |
| Services.WithoutDriver | app/models.py:89-92 | the history minus the driver's records: exactly the records of other drivers, none added |

## Left out

- The HTTP routes, the application factory and sample data, and server start-up are framework plumbing.
- TensorFlow and OpenCV are foreign libraries. They are collaborators given as functions, and so is base64 decoding. The resize and colour conversions are not computed: the model records the target size, layout and scaling.
- `_model_lock` and `_infer_lock`: the loader and the analyser are modelled as sequential.
- Wall-clock time is a parameter. This covers `inferenceMs` (passed in as tenths), `updated_at`, the session times and the upload timestamp.
- Randomness: `classify_driver`'s choice and confidence are parameters, constrained as `random` draws them. The sleep is not modelled.
- File and OS I/O is not modelled: saving and deleting uploads, creating the upload folder, CSV processing (`process_simulation_file`), `hash_file_content`, `generate_secure_token`.
- Deleting a driver's old simulation file before the new upload is checked (`update_driver`) has no trace in the model.
- ORM persistence: commit and rollback are not modelled. A refused update keeps its in-memory changes, as the driver object does before a rollback.
  - Ids come from a counter, where SQLite may reuse the highest deleted id.
  - Monitoring sessions are not held in the registry, so `delete_driver`'s cascade over them is not modelled. The cascade over classification results is.
- `format_datetime`, `get_all_drivers`, `get_classification_history` and `generate_emotion_data` are not part of the core.
- Text rendering is not modelled: the `.1f` formatting of `format_file_size`, the f-strings of `format_duration`, and the Italian error messages (errors are a datatype).
- Text.LowerAscii: lower-cases ASCII letters only. Other scripts' case mappings are not modelled; none of them produces 'c', 's' or 'v', so the ".csv" test is unaffected.
- Text.Lower: keeps the length, where Python's `str.lower()` can lengthen a text ('İ', U+0130, becomes two characters). The ".csv" test is unaffected for the same reason.
- Services.Registry.StoredName: `secure_filename` and `str.title()` are abstract functions. Their own behaviour, such as which characters they drop, is not modelled.
- EmotionMetrics.MapToMetrics: a NaN probability is not modelled. The scores are over reals, where NaN cannot arise.
- Utils.ValidateFileSize: file sizes are unbounded integers. No overflow applies, as in Python.
- Models.Driver.UpdateClassification: the ORM `onupdate` refresh of `updated_at` on other writes is not modelled. Only the explicit assignments are.
- Services.Registry.UpdateDriver: the ORM `onupdate` timestamp is not modelled, so `updated_at` stays as it was.
- Probabilities.SoftmaxPositive: `np.exp` is an abstract strictly positive function. Real `np.exp` underflows to 0.0 below about -745, so an entry far below the maximum (say -1000 against 0) gets exactly 0.0 from the source, not a positive value.
- Probabilities.NormalizeGuarantee: its positivity clause has the same limit. It relies on the strictly positive `exp`, and floating-point underflow to 0.0 is not modelled. The distribution clauses do not depend on it.

=== FILE: config.dfy ===
/**
 * The upload settings of app/config.py: the allowed extensions, the upload
 * size cap, and the extension check.
 */
module Config {
  import opened Text

  /** `ALLOWED_EXTENSIONS`: simulation data is CSV only. */
  const AllowedExtensions: set<string> := {"csv"}

  /** `MAX_CONTENT_LENGTH`: 16 MiB. */
  const MaxContentLength: int := 16 * 1024 * 1024

  /** `filename.rsplit('.', 1)[1]`: the text after the last '.'. */
  function Extension(filename: string): (e: string)
    requires '.' in filename
    ensures '.' !in e
    ensures |e| < |filename| && filename[|filename| - |e| - 1] == '.' && e == filename[|filename| - |e|..]
  {
    filename[LastIndexOf(filename, '.') + 1..]
  }

  /**
   * `Config.validate_file_extension`: the name contains a '.' and the text
   * after the last one, lower-cased, is an allowed extension. The result
   * depends on the file name alone.
   */
  function ValidateFileExtension(filename: string): (ok: bool)
    ensures '.' !in filename ==> !ok
    ensures ok <==> |filename| >= 4 && filename[|filename| - 4] == '.' && Lower(filename[|filename| - 3..]) == "csv"
  {
    var ok := '.' in filename && Lower(Extension(filename)) in AllowedExtensions;
    EndsWithCsv(filename);
    ok
  }

  /** "The extension after the last dot lowers to csv" and "the name ends in '.' and three letters lowering to csv" agree. */
  lemma EndsWithCsv(filename: string)
    ensures ('.' in filename && Lower(Extension(filename)) in AllowedExtensions)
            <==> (|filename| >= 4 && filename[|filename| - 4] == '.' && Lower(filename[|filename| - 3..]) == "csv")
  {
    var n := |filename|;
    if '.' in filename && Lower(Extension(filename)) in AllowedExtensions {
      var e := Extension(filename);
      assert |Lower(e)| == 3;
      assert e == filename[n - 3..];
    } else if n >= 4 && filename[n - 4] == '.' && Lower(filename[n - 3..]) == "csv" {
      var tail := filename[n - 3..];
      assert '.' in filename;
      forall i | 0 <= i < 3
        ensures tail[i] != '.'
      {
        assert LowerAscii(tail[i]) == "csv"[i];
      }
    }
  }

  /** The documented cases: "a.CSV" is accepted, "a.csv.exe", "a." and a name without a dot are not. */
  lemma ExtensionExamples()
    ensures ValidateFileExtension("a.CSV")
    ensures !ValidateFileExtension("a.csv.exe")
    ensures !ValidateFileExtension("a.")
    ensures !ValidateFileExtension("csv")
  {
    assert Lower("CSV") == "csv";
  }

  /** The cap is exactly 16 * 1024 * 1024 bytes, and CSV is the only extension. */
  lemma UploadSettings()
    ensures MaxContentLength == 16777216
    ensures forall e :: e in AllowedExtensions <==> e == "csv"
  {
  }
}

=== FILE: emotion_detector.dfy ===
/**
 * The per-frame emotion pipeline of app/ai/emotion_detector.py: the lazy
 * loader of the classifier and the face cascade, the data-URL prefix, the
 * preprocessing of the face crop, and `analyze_frame`, which strings them
 * together. The vision and learning libraries are collaborators given as
 * functions.
 */
module EmotionDetector {
  import opened Wrappers
  import opened Numeric
  import opened Text
  import opened FaceGeometry
  import opened Probabilities
  import opened EmotionMetrics

  /** A loaded Keras classifier: an identity and its `input_shape` attribute. */
  datatype Model = Model(id: nat, inputShape: InputShape)

  /**
   * `getattr(model, 'input_shape', (None, 224, 224, 3))`: the attribute is
   * missing, is a list or tuple of entries (each `None` or an integer), or is
   * some other object.
   */
  datatype InputShape = NoShape | Dims(dims: seq<Option<int>>) | NotASequence

  /** A Haar cascade; `empty` is `CascadeClassifier.empty()`, true when its file did not load. */
  datatype Cascade = Cascade(id: nat, empty: bool)

  /** The module globals `_model` and `_cascade`. */
  datatype Globals = Globals(model: Option<Model>, cascade: Option<Cascade>)

  /** What one call of the loader finds. */
  datatype LoadEnv = LoadEnv(
    setupOk: bool,               // the imports and the configuration lookups succeed
    modelFileExists: bool,
    loadedModel: Option<Model>,  // `load_model`; None when it raises
    customCascadeExists: bool,
    customCascade: Option<Cascade>,   // `cv2.CascadeClassifier(cascade_path)`; None when the constructor raises
    builtinCascade: Option<Cascade>)  // the same for the built-in file

  /** A cascade the constructor built and that is not empty. */
  predicate Usable(c: Option<Cascade>) {
    c.Some? && !c.value.empty
  }

  /** A cascade is only ever stored next to a model, and only when it is not empty. */
  predicate Consistent(g: Globals) {
    g.cascade.Some? ==> g.model.Some? && !g.cascade.value.empty
  }

  /** The pair is all set or all unset. */
  predicate BothOrNeither(g: Globals) {
    g.model.Some? <==> g.cascade.Some?
  }

  /**
   * One call of `_load_model_and_cascade`: the pair it returns, then the
   * globals it leaves. `_model` is assigned as soon as the classifier loads,
   * before any cascade is tried. A cascade constructor that raises lands in
   * the `except` that returns (None, None): no further cascade is tried.
   */
  function LoadStep(g: Globals, env: LoadEnv): (r: (Globals, Globals))
    ensures r.0 == r.1 || r.0 == Globals(None, None)
    ensures r.0.cascade.Some? && r.0 != g ==> r.0.model == env.loadedModel && Usable(r.0.cascade)
    ensures r.1.cascade != g.cascade ==> r.1 == r.0
  {
    if g.model.Some? && g.cascade.Some? then (g, g)
    else if !env.setupOk || !env.modelFileExists || env.loadedModel.None? then (Globals(None, None), g)
    else
      var withModel := g.(model := env.loadedModel);
      if env.customCascadeExists && env.customCascade.None? then (Globals(None, None), withModel)
      else if env.customCascadeExists && !env.customCascade.value.empty then
        var s := withModel.(cascade := env.customCascade);
        (s, s)
      else if Usable(env.builtinCascade) then
        var s := withModel.(cascade := env.builtinCascade);
        (s, s)
      else
        (Globals(None, None), withModel)
  }

  /** A decoded frame: an identity and its size in pixels. */
  datatype Image = Image(id: nat, height: nat, width: nat)

  /** The channel layout handed to the classifier. */
  datatype Layout = Gray | Bgr | Rgb

  /** The rows `[top, bottom)` and columns `[left, right)` of an image that the face crop keeps. */
  datatype Crop = Crop(image: nat, top: int, bottom: int, left: int, right: int)

  /**
   * The classifier's input: a batch of `batch` images of `height` x `width`
   * x `channels`, resized from `crop`, in `layout`, scaled to [0, 1] when
   * `unitRange`, raw 0..255 bytes otherwise.
   */
  datatype FaceInput = FaceInput(batch: nat, height: int, width: int, channels: nat, layout: Layout, unitRange: bool, crop: Crop)

  /** The `(H, W, C)` read off the model's input shape. */
  datatype Target = Target(h: Option<int>, w: Option<int>, c: Option<int>)

  /** The external pieces `analyze_frame` relies on. */
  datatype Collaborators = Collaborators(
    decodeImage: string -> Option<Image>,                 // base64 decoding and `cv2.imdecode`; None when either fails
    detectFaces: (Image, Cascade) -> Option<seq<Rect>>,   // `detectMultiScale`; None when it raises
    predict: (Model, FaceInput) -> Option<ModelOutput>,   // `model.predict`; None when it raises
    exp: PositiveFn,                                      // `np.exp`
    mode: string)                                         // the `EMOTION_PREPROCESS_MODE` setting

  const DataImagePrefix := "data:image"
  /** `_expand_bbox(..., margin=0.25, make_square=True)` as `analyze_frame` calls it. */
  const FaceMargin: real := 0.25
  const RawBgrMode := "raw_bgr"

  // ---------------------------------------------------------------------
  // Data URL

  /**
   * The base64 text `_decode_base64_image` decodes: after the first ',' when
   * the string starts with "data:image" (no comma raises, giving None), the
   * whole string otherwise.
   */
  function Payload(url: string): (r: Option<string>)
    ensures !StartsWith(url, DataImagePrefix) ==> r == Some(url)
    ensures StartsWith(url, DataImagePrefix) ==> (r.None? <==> ',' !in url)
    ensures StartsWith(url, DataImagePrefix) && r.Some? ==>
              exists k :: 0 <= k < |url| && url[k] == ',' && ',' !in url[..k] && r.value == url[k + 1..]
  {
    if !StartsWith(url, DataImagePrefix) then Some(url)
    else
      var k := IndexOf(url, ',');
      if k < 0 then None else Some(url[k + 1..])
  }

  /** `_decode_base64_image`. */
  function DecodeFrame(url: string, c: Collaborators): (r: Option<Image>)
    ensures !StartsWith(url, DataImagePrefix) ==> r == c.decodeImage(url)
    ensures StartsWith(url, DataImagePrefix) && ',' !in url ==> r.None?
  {
    match Payload(url)
    case None => None
    case Some(p) => c.decodeImage(p)
  }

  /** A header without a comma, a comma, then any payload: the payload comes back whole, commas and all. */
  lemma PayloadOfDataUrl(header: string, data: string)
    requires StartsWith(header, DataImagePrefix) && ',' !in header
    ensures Payload(header + "," + data) == Some(data)
  {
    var url := header + "," + data;
    assert url[..|DataImagePrefix|] == header[..|DataImagePrefix|];
    assert url[|header|] == ',';
    assert url[..|header|] == header;
    var k := IndexOf(url, ',');
    assert k == |header|;
    assert url[k + 1..] == data;
  }

  // ---------------------------------------------------------------------
  // Preprocessing

  /** The `(H, W, C)` the model asks for: a 4-tuple drops its batch entry, a 3-tuple is taken as is, anything else is 224 x 224 x 3. */
  function TargetOf(shape: InputShape): (t: Target)
    ensures shape.Dims? && |shape.dims| == 4 ==> t == Target(shape.dims[1], shape.dims[2], shape.dims[3])
    ensures shape.Dims? && |shape.dims| == 3 ==> t == Target(shape.dims[0], shape.dims[1], shape.dims[2])
    ensures !(shape.Dims? && 3 <= |shape.dims| <= 4) ==> t == Target(Some(224), Some(224), Some(3))
  {
    if shape.Dims? && |shape.dims| == 4 then Target(shape.dims[1], shape.dims[2], shape.dims[3])
    else if shape.Dims? && |shape.dims| == 3 then Target(shape.dims[0], shape.dims[1], shape.dims[2])
    else Target(Some(224), Some(224), Some(3))
  }

  /** The rows and columns `image_bgr[y:y+h, x:x+w]` keeps. */
  function CropOf(img: Image, box: Rect): Crop {
    Crop(img.id, SliceIndex(box.y, img.height), SliceIndex(box.y + box.h, img.height),
         SliceIndex(box.x, img.width), SliceIndex(box.x + box.w, img.width))
  }

  predicate EmptyCrop(c: Crop) { c.bottom <= c.top || c.right <= c.left }

  /**
   * `_preprocess_face_image`: None when the crop is empty or the target
   * height or width is not a positive integer (OpenCV raises in both cases);
   * otherwise one face, resized to the target size, single-channel when the
   * model wants C == 1 and three-channel otherwise, and scaled to [0, 1]
   * unless the mode is "raw_bgr".
   */
  function Preprocess(img: Image, box: Rect, shape: InputShape, mode: string): (r: Option<FaceInput>)
    ensures var t := TargetOf(shape);
            r.None? <==> EmptyCrop(CropOf(img, box)) || t.h.None? || t.w.None? || t.h.value <= 0 || t.w.value <= 0
    ensures r.Some? ==> var t := TargetOf(shape);
                        && r.value.batch == 1
                        && r.value.height == t.h.value && r.value.width == t.w.value
                        && (r.value.channels == 1 <==> t.c == Some(1))
                        && (r.value.channels == 1 || r.value.channels == 3)
                        && (r.value.layout == Gray <==> r.value.channels == 1)
                        && (r.value.unitRange <==> mode != RawBgrMode)
                        && r.value.crop == CropOf(img, box)
  {
    var t := TargetOf(shape);
    var crop := CropOf(img, box);
    if EmptyCrop(crop) || t.h.None? || t.w.None? || t.h.value <= 0 || t.w.value <= 0 then None
    else
      var raw := mode == RawBgrMode;
      if t.c == Some(1) then Some(FaceInput(1, t.h.value, t.w.value, 1, Gray, !raw, crop))
      else Some(FaceInput(1, t.h.value, t.w.value, 3, if raw then Bgr else Rgb, !raw, crop))
  }

  /** A shape with a batch entry selects the same size as the shape without it. */
  lemma BatchEntryIgnored(batch: Option<int>, dims: seq<Option<int>>)
    requires |dims| == 3
    ensures TargetOf(Dims([batch] + dims)) == TargetOf(Dims(dims))
  {
  }

  /** A model without a usable shape gets a 224 x 224 RGB input in [0, 1] (with the default mode). */
  lemma DefaultShapeInput(img: Image, box: Rect)
    requires InImage(box, img.height, img.width) && box.w >= 1 && box.h >= 1
    ensures var r := Preprocess(img, box, NoShape, "rgb01");
            r.Some? && r.value.height == 224 && r.value.width == 224 && r.value.channels == 3
            && r.value.layout == Rgb && r.value.unitRange
  {
    assert !EmptyCrop(CropOf(img, box));
  }

  /** For a non-empty box inside the image the crop is exactly the box. */
  lemma CropOfInsideBox(img: Image, box: Rect)
    requires InImage(box, img.height, img.width) && box.w >= 1 && box.h >= 1
    ensures CropOf(img, box) == Crop(img.id, box.y, box.y + box.h, box.x, box.x + box.w)
    ensures !EmptyCrop(CropOf(img, box))
  {
  }

  // ---------------------------------------------------------------------
  // Orchestration

  /** The seven probabilities as the label-keyed dictionary, in label order. */
  function ProbsMap(p: seq<real>): (m: map<string, real>)
    requires |p| == |Labels|
    ensures m.Keys == set l | l in Labels
    ensures forall i :: 0 <= i < |Labels| ==> m[Labels[i]] == p[i]
  {
    map[Labels[0] := p[0], Labels[1] := p[1], Labels[2] := p[2], Labels[3] := p[3],
        Labels[4] := p[4], Labels[5] := p[5], Labels[6] := p[6]]
  }

  /** The neutral answer, with the measured time. */
  function NeutralResult(elapsedTenths: int): AnalysisResult {
    AnalysisResult(Neutrality, NeutralProbs(), elapsedTenths, None)
  }

  /**
   * `analyze_frame` after the loader: decode, detect, expand, preprocess,
   * predict, convert, check the length, and pick the first most probable
   * label. `elapsedTenths` stands for the measured time.
   */
  function AnalyzeLoaded(m: Model, cascade: Cascade, url: string, c: Collaborators, elapsedTenths: int): (r: Option<AnalysisResult>)
    ensures DecodeFrame(url, c).None? ==> r.None?
    ensures r.Some? ==> r.value.emotion in Labels && r.value.inferenceTenths == elapsedTenths
                        && r.value.probs.Keys == set l | l in Labels
  {
    match DecodeFrame(url, c)
    case None => None
    case Some(img) =>
      match DetectLargestFace(c.detectFaces(img, cascade))
      case None => Some(NeutralResult(elapsedTenths))
      case Some(face) =>
        var box := Expanded(img.height, img.width, face, FaceMargin, true);
        match Preprocess(img, box, m.inputShape, c.mode)
        case None => None
        case Some(input) =>
          match c.predict(m, input)
          case None => None
          case Some(out) =>
            match ToProbabilities(out, c.exp)
            case None => None
            case Some(p) =>
              if |p| != |Labels| then None
              else Some(Scored(p, box, elapsedTenths))
  }

  /** The answer for a face: the first most probable label, the label-keyed probabilities, the time and the box. */
  function Scored(p: seq<real>, box: Rect, elapsedTenths: int): AnalysisResult
    requires |p| == |Labels|
  {
    AnalysisResult(Labels[FirstMaxIndex(p)], ProbsMap(p), elapsedTenths, Some(box))
  }

  /** The emotion of a scored answer is the first label, in label order, whose probability is maximal. */
  ghost predicate FirstMostProbable(r: AnalysisResult) {
    && (forall l :: l in r.probs <==> l in Labels)
    && (forall j :: 0 <= j < |Labels| ==> Labels[j] in r.probs)
    && exists k :: 0 <= k < |Labels| && r.emotion == Labels[k]
         && (forall j :: 0 <= j < |Labels| ==> r.probs[Labels[j]] <= r.probs[Labels[k]])
         && (forall j :: 0 <= j < k ==> r.probs[Labels[j]] < r.probs[Labels[k]])
  }

  /** `analyze_frame`: its result, and the globals the loader leaves behind. */
  function Analyze(g: Globals, url: string, env: LoadEnv, c: Collaborators, elapsedTenths: int): (r: (Option<AnalysisResult>, Globals))
    ensures r.1 == LoadStep(g, env).1
    ensures r.0.Some? ==> LoadStep(g, env).0.model.Some? && LoadStep(g, env).0.cascade.Some?
  {
    var (ret, after) := LoadStep(g, env);
    if ret.model.None? || ret.cascade.None? then (None, after)
    else (AnalyzeLoaded(ret.model.value, ret.cascade.value, url, c, elapsedTenths), after)
  }

  /** The detector's state: the two lazily loaded globals. */
  class Detector {
    var model: Option<Model>
    var cascade: Option<Cascade>

    function State(): Globals
      reads this
    {
      Globals(model, cascade)
    }

    /** Both globals start as `None`. */
    constructor ()
      ensures model.None? && cascade.None?
    {
      model := None;
      cascade := None;
    }

    /** `_load_model_and_cascade`, run without concurrency. */
    method Load(env: LoadEnv) returns (m: Option<Model>, c: Option<Cascade>)
      modifies this
      ensures (Globals(m, c), State()) == LoadStep(old(State()), env)
    {
      if model.Some? && cascade.Some? {
        return model, cascade;
      }
      if !env.setupOk || !env.modelFileExists {
        return None, None;
      }
      if env.loadedModel.None? {
        return None, None;
      }
      model := env.loadedModel;
      var cascadeLoaded := false;
      if env.customCascadeExists {
        var temp := env.customCascade;
        if temp.None? {
          return None, None;
        }
        if !temp.value.empty {
          cascade := temp;
          cascadeLoaded := true;
        }
      }
      if !cascadeLoaded {
        var temp := env.builtinCascade;
        if temp.None? {
          return None, None;
        }
        if !temp.value.empty {
          cascade := temp;
          cascadeLoaded := true;
        }
      }
      if !cascadeLoaded {
        return None, None;
      }
      return model, cascade;
    }

    /** `analyze_frame(image_data_url)`. */
    method AnalyzeFrame(url: string, env: LoadEnv, c: Collaborators, elapsedTenths: int) returns (r: Option<AnalysisResult>)
      modifies this
      ensures (r, State()) == Analyze(old(State()), url, env, c, elapsedTenths)
    {
      var m, cs := Load(env);
      if m.None? || cs.None? {
        return None;
      }
      var image := DecodeFrame(url, c);
      if image.None? {
        return None;
      }
      var img := image.value;
      var face := DetectLargestFace(c.detectFaces(img, cs.value));
      if face.None? {
        var neutral := NeutralEmotionData();
        return Some(neutral.(inferenceTenths := elapsedTenths));
      }
      var box := ExpandBox(img.height, img.width, face.value, FaceMargin, true);
      var input := Preprocess(img, box, m.value.inputShape, c.mode);
      if input.None? {
        return None;
      }
      var predictions := c.predict(m.value, input.value);
      if predictions.None? {
        return None;
      }
      var probs := ToProbabilities(predictions.value, c.exp);
      if probs.None? || |probs.value| != |Labels| {
        return None;
      }
      var emotionProbs := ProbsMap(probs.value);
      var top := Labels[FirstMaxIndex(probs.value)];
      r := Some(AnalysisResult(top, emotionProbs, elapsedTenths, Some(box)));
      assert r.value == Scored(probs.value, box, elapsedTenths);
    }
  }

  // ---------------------------------------------------------------------
  // Loader lemmas

  /** The returned pair is always both set or both unset, and a consistent state stays consistent. */
  lemma LoadReturnsBothOrNeither(g: Globals, env: LoadEnv)
    requires Consistent(g)
    ensures BothOrNeither(LoadStep(g, env).0)
    ensures Consistent(LoadStep(g, env).1)
    ensures LoadStep(g, env).0.model.Some? ==> LoadStep(g, env).0 == LoadStep(g, env).1
  {
  }

  /** Once loaded, the pair is returned as cached, whatever the environment. */
  lemma LoadCached(g: Globals, env: LoadEnv)
    requires g.model.Some? && g.cascade.Some?
    ensures LoadStep(g, env) == (g, g)
  {
  }

  /** A missing model file gives (None, None) and touches no global. */
  lemma LoadMissingModelFile(g: Globals, env: LoadEnv)
    requires !(g.model.Some? && g.cascade.Some?) && !env.modelFileExists
    ensures LoadStep(g, env) == (Globals(None, None), g)
  {
  }

  /** A present, non-empty custom cascade wins over the built-in one. */
  lemma LoadPrefersCustomCascade(g: Globals, env: LoadEnv)
    requires !(g.model.Some? && g.cascade.Some?)
    requires env.setupOk && env.modelFileExists && env.loadedModel.Some?
    requires env.customCascadeExists && Usable(env.customCascade)
    ensures LoadStep(g, env).0 == Globals(env.loadedModel, env.customCascade)
  {
  }

  /** A missing or empty custom cascade falls back to a usable built-in one. */
  lemma LoadFallsBackToBuiltin(g: Globals, env: LoadEnv)
    requires !(g.model.Some? && g.cascade.Some?)
    requires env.setupOk && env.modelFileExists && env.loadedModel.Some?
    requires !env.customCascadeExists || (env.customCascade.Some? && env.customCascade.value.empty)
    requires Usable(env.builtinCascade)
    ensures LoadStep(g, env).0 == Globals(env.loadedModel, env.builtinCascade)
  {
  }

  /**
   * A present custom cascade file whose constructor raises ends the call
   * with (None, None) and `_model` already stored: the built-in cascade is
   * not tried, however usable it is.
   */
  lemma LoadCustomCascadeRaises(g: Globals, env: LoadEnv)
    requires !(g.model.Some? && g.cascade.Some?)
    requires env.setupOk && env.modelFileExists && env.loadedModel.Some?
    requires env.customCascadeExists && env.customCascade.None?
    ensures LoadStep(g, env) == (Globals(None, None), g.(model := env.loadedModel))
    ensures Usable(env.builtinCascade) ==> LoadStep(g, env).0 != Globals(env.loadedModel, env.builtinCascade)
  {
  }

  /**
   * When both cascades are empty the call returns (None, None) but leaves
   * `_model` set: from the initial state the globals end up half set, and
   * the next call loads the model again.
   */
  lemma LoadBothCascadesEmpty(env: LoadEnv)
    requires env.setupOk && env.modelFileExists && env.loadedModel.Some?
    requires !env.customCascadeExists || (env.customCascade.Some? && env.customCascade.value.empty)
    requires env.builtinCascade.Some? && env.builtinCascade.value.empty
    ensures LoadStep(Globals(None, None), env) == (Globals(None, None), Globals(env.loadedModel, None))
    ensures !BothOrNeither(LoadStep(Globals(None, None), env).1)
  {
  }

  /** From a half-set state, a call that finds a usable cascade returns the freshly loaded model with it. */
  lemma LoadRecoversFromHalfSet(m: Model, env: LoadEnv)
    requires env.setupOk && env.modelFileExists && env.loadedModel.Some?
    requires !env.customCascadeExists || env.customCascade.Some?
    requires Usable(env.builtinCascade)
    ensures var (ret, after) := LoadStep(Globals(Some(m), None), env);
            ret == after && ret.model == env.loadedModel && ret.cascade.Some? && !ret.cascade.value.empty
  {
  }

  // ---------------------------------------------------------------------
  // Analysis lemmas

  /** No model or cascade, or a frame that does not decode: no result. */
  lemma AnalyzeNoneWithoutInputs(g: Globals, url: string, env: LoadEnv, c: Collaborators, elapsedTenths: int)
    requires LoadStep(g, env).0.model.None? || LoadStep(g, env).0.cascade.None? || DecodeFrame(url, c).None?
    ensures Analyze(g, url, env, c, elapsedTenths).0.None?
  {
  }

  /** A frame without a face gives the neutral answer, with the measured time. */
  lemma AnalyzeNoFaceIsNeutral(m: Model, cascade: Cascade, url: string, c: Collaborators, elapsedTenths: int)
    requires DecodeFrame(url, c).Some?
    requires DetectLargestFace(c.detectFaces(DecodeFrame(url, c).value, cascade)).None?
    ensures var r := AnalyzeLoaded(m, cascade, url, c, elapsedTenths);
            r.Some? && r.value.emotion == Neutrality && r.value.bbox.None?
            && r.value.probs[Neutrality] == 1.0
            && (forall l :: l in Labels && l != Neutrality ==> r.value.probs[l] == 0.0)
            && r.value.inferenceTenths == elapsedTenths
  {
  }

  /**
   * A result with a face box carries the seven labels, and its emotion is
   * the first label, in label order, whose probability is maximal.
   */
  lemma AnalyzeDominantEmotion(m: Model, cascade: Cascade, url: string, c: Collaborators, elapsedTenths: int)
    requires var r := AnalyzeLoaded(m, cascade, url, c, elapsedTenths); r.Some? && r.value.bbox.Some?
    ensures FirstMostProbable(AnalyzeLoaded(m, cascade, url, c, elapsedTenths).value)
  {
    var img := DecodeFrame(url, c).value;
    var face := DetectLargestFace(c.detectFaces(img, cascade)).value;
    var box := Expanded(img.height, img.width, face, FaceMargin, true);
    var input := Preprocess(img, box, m.inputShape, c.mode).value;
    var out := c.predict(m, input).value;
    var p := ToProbabilities(out, c.exp).value;
    assert AnalyzeLoaded(m, cascade, url, c, elapsedTenths).value == Scored(p, box, elapsedTenths);
    ScoredFirstMostProbable(p, box, elapsedTenths);
  }

  lemma ScoredFirstMostProbable(p: seq<real>, box: Rect, elapsedTenths: int)
    requires |p| == |Labels|
    ensures FirstMostProbable(Scored(p, box, elapsedTenths))
  {
    var m := ProbsMap(p);
    FirstMaxLabelMostProbable(p, m, AnalysisResult(Labels[FirstMaxIndex(p)], m, elapsedTenths, Some(box)));
  }

  /** Any map that gives each label its probability makes the first-maximum label the most probable one. */
  lemma FirstMaxLabelMostProbable(p: seq<real>, m: map<string, real>, r: AnalysisResult)
    requires |p| == |Labels|
    requires m.Keys == set l | l in Labels
    requires forall i :: 0 <= i < |Labels| ==> m[Labels[i]] == p[i]
    requires r.probs == m && r.emotion == Labels[FirstMaxIndex(p)]
    ensures FirstMostProbable(r)
  {
    var k := FirstMaxIndex(p);
    assert forall j :: 0 <= j < |Labels| ==> r.probs[Labels[j]] <= r.probs[Labels[k]];
  }

  /** The face box of a result lies within the frame. */
  lemma AnalyzeBoxWithinFrame(m: Model, cascade: Cascade, url: string, c: Collaborators, elapsedTenths: int)
    requires var r := AnalyzeLoaded(m, cascade, url, c, elapsedTenths); r.Some? && r.value.bbox.Some?
    ensures var img := DecodeFrame(url, c).value;
            var b := AnalyzeLoaded(m, cascade, url, c, elapsedTenths).value.bbox.value;
            b.x >= 0 && b.y >= 0 && b.x + b.w <= img.width && b.y + b.h <= img.height
  {
    var img := DecodeFrame(url, c).value;
    var face := DetectLargestFace(c.detectFaces(img, cascade)).value;
    ExpandedWithinBorders(img.height, img.width, face, FaceMargin, true);
  }

  /** A probability vector whose length is not seven gives no result. */
  lemma AnalyzeRejectsWrongLength(m: Model, cascade: Cascade, url: string, c: Collaborators, elapsedTenths: int,
                                  img: Image, face: Rect, input: FaceInput, out: ModelOutput, p: seq<real>)
    requires DecodeFrame(url, c) == Some(img)
    requires DetectLargestFace(c.detectFaces(img, cascade)) == Some(face)
    requires Preprocess(img, Expanded(img.height, img.width, face, FaceMargin, true), m.inputShape, c.mode) == Some(input)
    requires c.predict(m, input) == Some(out)
    requires ToProbabilities(out, c.exp) == Some(p) && |p| != 7
    ensures AnalyzeLoaded(m, cascade, url, c, elapsedTenths).None?
  {
  }

  /** Failing preprocessing or prediction gives no result. */
  lemma AnalyzeNoneOnFailure(m: Model, cascade: Cascade, url: string, c: Collaborators, elapsedTenths: int,
                             img: Image, face: Rect)
    requires DecodeFrame(url, c) == Some(img)
    requires DetectLargestFace(c.detectFaces(img, cascade)) == Some(face)
    requires var input := Preprocess(img, Expanded(img.height, img.width, face, FaceMargin, true), m.inputShape, c.mode);
             input.None? || c.predict(m, input.value).None?
    ensures AnalyzeLoaded(m, cascade, url, c, elapsedTenths).None?
  {
  }
}

=== FILE: geometry.dfy ===
/**
 * Face localisation geometry: choosing the largest detected rectangle and
 * growing it around its centre, squared and clamped to the image
 * (app/ai/emotion_detector.py, `_detect_largest_face` and `_expand_bbox`).
 */
module FaceGeometry {
  import opened Wrappers
  import opened Numeric

  /** An `(x, y, w, h)` pixel rectangle as the cascade detector reports it. */
  datatype Rect = Rect(x: int, y: int, w: int, h: int)

  function Area(r: Rect): int { r.w * r.h }

  function Areas(faces: seq<Rect>): (a: seq<real>)
    ensures |a| == |faces|
    ensures forall i :: 0 <= i < |faces| ==> a[i] == Area(faces[i]) as real
  {
    seq(|faces|, i requires 0 <= i < |faces| => Area(faces[i]) as real)
  }

  /**
   * `max(faces, key=lambda f: f[2] * f[3])` after the empty check: no face
   * for an empty detection list, otherwise the first rectangle of maximal area.
   */
  function LargestFace(faces: seq<Rect>): (r: Option<Rect>)
    ensures r.None? <==> |faces| == 0
    ensures r.Some? ==> exists k :: 0 <= k < |faces| && faces[k] == r.value
                          && (forall j :: 0 <= j < |faces| ==> Area(faces[j]) <= Area(faces[k]))
                          && (forall j :: 0 <= j < k ==> Area(faces[j]) < Area(faces[k]))
  {
    if |faces| == 0 then None
    else
      var k := FirstMaxIndex(Areas(faces));
      assert forall j :: 0 <= j < |faces| ==> Areas(faces)[j] <= Areas(faces)[k];
      Some(faces[k])
  }

  /** A detector that raised is handled like one that found nothing. */
  function DetectLargestFace(detections: Option<seq<Rect>>): (r: Option<Rect>)
    ensures detections.None? ==> r.None?
    ensures detections.Some? ==> r == LargestFace(detections.value)
  {
    match detections
    case None => None
    case Some(faces) => LargestFace(faces)
  }

  /** The box lies inside an image of `imgH` rows and `imgW` columns. */
  predicate InImage(b: Rect, imgH: int, imgW: int) {
    0 <= b.x && 0 <= b.y && 0 <= b.w && 0 <= b.h && b.x + b.w <= imgW && b.y + b.h <= imgH
  }

  /** One side grown by the margin: `w * (1.0 + margin)`. */
  function Grown(n: int, margin: real): real {
    n as real * (1.0 + margin)
  }

  lemma GrownFacts(n: int, margin: real)
    ensures n >= 0 && margin >= 0.0 ==> Grown(n, margin) >= n as real
    ensures margin == 0.0 ==> Grown(n, margin) == n as real
  {
    assert Grown(n, margin) == n as real + n as real * margin;
  }

  /** The side of the square `_expand_bbox` aims for: `max(w2, h2)`. */
  function SquareSide(b: Rect, margin: real): real {
    Max(Grown(b.w, margin), Grown(b.h, margin))
  }

  /** The grown width and height before rounding. */
  function ExtentW(b: Rect, margin: real, makeSquare: bool): real {
    if makeSquare then SquareSide(b, margin) else Grown(b.w, margin)
  }

  function ExtentH(b: Rect, margin: real, makeSquare: bool): real {
    if makeSquare then SquareSide(b, margin) else Grown(b.h, margin)
  }

  /** The rounded left and top edges before clipping. */
  function RawLeft(b: Rect, margin: real, makeSquare: bool): int {
    RoundHalfEven(b.x as real + b.w as real / 2.0 - ExtentW(b, margin, makeSquare) / 2.0)
  }

  function RawTop(b: Rect, margin: real, makeSquare: bool): int {
    RoundHalfEven(b.y as real + b.h as real / 2.0 - ExtentH(b, margin, makeSquare) / 2.0)
  }

  /** Rounding a centred extent of at least the box's size starts no later than the box does. */
  lemma EdgeNotAfter(pos: int, len: int, size: real)
    requires len >= 0 && size >= len as real
    ensures RoundHalfEven(pos as real + len as real / 2.0 - size / 2.0) <= pos
  {
    var c := pos as real + len as real / 2.0 - size / 2.0;
    RoundWithin(c, c.Floor, pos);
  }

  /**
   * For a non-empty box inside the image and a non-negative margin the grown
   * box starts before the last column and row and is at least one pixel wide and tall.
   */
  lemma GrownBoxStartsInside(box: Rect, imgH: int, imgW: int, margin: real, makeSquare: bool)
    requires InImage(box, imgH, imgW) && box.w >= 1 && box.h >= 1 && margin >= 0.0
    ensures RawLeft(box, margin, makeSquare) <= imgW - 1 && RawTop(box, margin, makeSquare) <= imgH - 1
    ensures RoundHalfEven(ExtentW(box, margin, makeSquare)) >= 1
    ensures RoundHalfEven(ExtentH(box, margin, makeSquare)) >= 1
  {
    GrownFacts(box.w, margin);
    GrownFacts(box.h, margin);
    var ew, eh := ExtentW(box, margin, makeSquare), ExtentH(box, margin, makeSquare);
    EdgeNotAfter(box.x, box.w, ew);
    EdgeNotAfter(box.y, box.h, eh);
    RoundWithin(ew, 1, ew.Floor + 1);
    RoundWithin(eh, 1, eh.Floor + 1);
  }

  /** With no margin and no squaring an integer box rounds to itself. */
  lemma UnscaledBoxUnchanged(box: Rect)
    ensures RawLeft(box, 0.0, false) == box.x && RawTop(box, 0.0, false) == box.y
    ensures RoundHalfEven(ExtentW(box, 0.0, false)) == box.w
    ensures RoundHalfEven(ExtentH(box, 0.0, false)) == box.h
  {
    GrownFacts(box.w, 0.0);
    GrownFacts(box.h, 0.0);
    RoundOfInteger(box.x);
    RoundOfInteger(box.y);
    RoundOfInteger(box.w);
    RoundOfInteger(box.h);
  }

  /**
   * What `_expand_bbox` returns: the grown box with its rounded corner moved
   * to at least 0 and its rounded size cut at the right and bottom borders.
   */
  function Expanded(imgH: int, imgW: int, box: Rect, margin: real, makeSquare: bool): (r: Rect)
    ensures r.x >= 0 && r.y >= 0
    ensures r.w <= RoundHalfEven(ExtentW(box, margin, makeSquare)) && r.h <= RoundHalfEven(ExtentH(box, margin, makeSquare))
  {
    var left := RawLeft(box, margin, makeSquare);
    var top := RawTop(box, margin, makeSquare);
    var x := if 0 > left then 0 else left;
    var y := if 0 > top then 0 else top;
    var w := RoundHalfEven(ExtentW(box, margin, makeSquare));
    var h := RoundHalfEven(ExtentH(box, margin, makeSquare));
    Rect(x, y, if x + w > imgW then imgW - x else w, if y + h > imgH then imgH - y else h)
  }

  /**
   * `_expand_bbox(image_shape, bbox, margin, make_square)`: grow the box by
   * `1 + margin` about its centre, optionally square it, round the corner and
   * the size, move a negative left or top edge to 0 and cut the box at the
   * right and bottom borders.
   */
  method ExpandBox(imgH: int, imgW: int, box: Rect, margin: real, makeSquare: bool) returns (r: Rect)
    ensures r == Expanded(imgH, imgW, box, margin, makeSquare)
    ensures r.x >= 0 && r.y >= 0 && r.x + r.w <= imgW && r.y + r.h <= imgH
  {
    var cx := box.x as real + box.w as real / 2.0;
    var cy := box.y as real + box.h as real / 2.0;

    var w2 := Grown(box.w, margin);
    var h2 := Grown(box.h, margin);

    if makeSquare {
      var side := Max(w2, h2);
      w2, h2 := side, side;
    }

    var x := RoundHalfEven(cx - w2 / 2.0);
    var y := RoundHalfEven(cy - h2 / 2.0);
    var w := RoundHalfEven(w2);
    var h := RoundHalfEven(h2);
    assert w2 == ExtentW(box, margin, makeSquare) && h2 == ExtentH(box, margin, makeSquare);
    assert x == RawLeft(box, margin, makeSquare) && y == RawTop(box, margin, makeSquare);
    assert w == RoundHalfEven(ExtentW(box, margin, makeSquare)) && h == RoundHalfEven(ExtentH(box, margin, makeSquare));

    x := if 0 > x then 0 else x;
    y := if 0 > y then 0 else y;
    if x + w > imgW {
      w := imgW - x;
    }
    if y + h > imgH {
      h := imgH - y;
    }
    r := Rect(x, y, w, h);
  }

  /** The expanded box never starts left of or above the image and never passes its right or bottom border. */
  lemma ExpandedWithinBorders(imgH: int, imgW: int, box: Rect, margin: real, makeSquare: bool)
    ensures var r := Expanded(imgH, imgW, box, margin, makeSquare);
            r.x >= 0 && r.y >= 0 && r.x + r.w <= imgW && r.y + r.h <= imgH
  {
  }

  /**
   * A negative left (top) edge is moved to 0 and the box keeps its rounded
   * size there: clipping never widens it to make up for the cut, and only the
   * far border can narrow it.
   */
  lemma ExpandedClipsWithoutWidening(imgH: int, imgW: int, box: Rect, margin: real, makeSquare: bool)
    ensures var r := Expanded(imgH, imgW, box, margin, makeSquare);
            var w := RoundHalfEven(ExtentW(box, margin, makeSquare));
            var h := RoundHalfEven(ExtentH(box, margin, makeSquare));
            && r.w <= w && r.h <= h
            && (RawLeft(box, margin, makeSquare) < 0 ==> r.x == 0 && r.w == (if w > imgW then imgW else w))
            && (RawTop(box, margin, makeSquare) < 0 ==> r.y == 0 && r.h == (if h > imgH then imgH else h))
  {
  }

  /** A non-empty box inside the image, grown by a non-negative margin, stays non-empty and inside the image. */
  lemma ExpandedStaysInside(imgH: int, imgW: int, box: Rect, margin: real, makeSquare: bool)
    requires InImage(box, imgH, imgW) && box.w >= 1 && box.h >= 1 && margin >= 0.0
    ensures var r := Expanded(imgH, imgW, box, margin, makeSquare);
            InImage(r, imgH, imgW) && r.w >= 1 && r.h >= 1
  {
    GrownBoxStartsInside(box, imgH, imgW, margin, makeSquare);
  }

  /** With margin 0 and no squaring, an integer box inside the image comes back unchanged. */
  lemma ExpandedUnscaledIsIdentity(imgH: int, imgW: int, box: Rect)
    requires InImage(box, imgH, imgW)
    ensures Expanded(imgH, imgW, box, 0.0, false) == box
  {
    UnscaledBoxUnchanged(box);
  }

  /**
   * Expanding again with margin 0 and no squaring changes nothing, for any
   * non-empty box inside the image and any non-negative margin of the first expansion.
   */
  lemma ExpandedIdempotent(imgH: int, imgW: int, box: Rect, margin: real, makeSquare: bool)
    requires InImage(box, imgH, imgW) && box.w >= 1 && box.h >= 1 && margin >= 0.0
    ensures var r := Expanded(imgH, imgW, box, margin, makeSquare);
            Expanded(imgH, imgW, r, 0.0, false) == r
  {
    ExpandedStaysInside(imgH, imgW, box, margin, makeSquare);
    ExpandedUnscaledIsIdentity(imgH, imgW, Expanded(imgH, imgW, box, margin, makeSquare));
  }

  /** Scaling by a non-negative factor commutes with taking the larger side. */
  lemma ScaledMax(a: int, b: int, k: real)
    requires k >= 0.0
    ensures Max(a as real * k, b as real * k) == Max(a as real, b as real) * k
  {
    var d := (a - b) as real;
    assert a as real * k - b as real * k == d * k;
    if a >= b {
      assert d * k >= 0.0;
    } else {
      assert (-d) * k >= 0.0;
    }
  }

  /** Squared and not cut by a border, both sides are `round(max(w, h) * (1 + margin))`. */
  lemma ExpandedSquare(imgH: int, imgW: int, box: Rect, margin: real)
    requires margin >= -1.0
    ensures var r := Expanded(imgH, imgW, box, margin, true);
            var side := RoundHalfEven(Max(box.w as real, box.h as real) * (1.0 + margin));
            r.x + side <= imgW && r.y + side <= imgH ==> r.w == side && r.h == side
  {
    ScaledMax(box.w, box.h, 1.0 + margin);
    assert SquareSide(box, margin) == Max(box.w as real, box.h as real) * (1.0 + margin);
  }
}

=== FILE: metrics.dfy ===
/**
 * The seven emotion labels, the fixed answer for a frame without a face, and
 * the linear mapping from label probabilities to the stress / calm / focus
 * scores (app/ai/emotion_detector.py, `_map_emotions_to_metrics`,
 * `_get_neutral_emotion_data`, `get_emotion_metrics`).
 */
module EmotionMetrics {
  import opened Wrappers
  import opened Numeric
  import opened FaceGeometry

  const Anger := "Rabbia"
  const Disgust := "Disgusto"
  const Fear := "Paura"
  const Happiness := "Felicita'"
  const Neutrality := "Neutralita'"
  const Sadness := "Tristezza"
  const Surprise := "Sorpresa"

  /** `EMOTION_LABELS`, in the order of the classifier's outputs. */
  const Labels: seq<string> := [Anger, Disgust, Fear, Happiness, Neutrality, Sadness, Surprise]

  /**
   * One frame's analysis: the dominant label, the probability per label, the
   * elapsed time in tenths of a millisecond (`round(ms, 1)`), and the
   * expanded face box, absent when no face was found.
   */
  datatype AnalysisResult = AnalysisResult(emotion: string, probs: map<string, real>, inferenceTenths: int, bbox: Option<Rect>)

  /** Scores in tenths of a point: `round(score, 1)` as an integer count of tenths. */
  datatype Metrics = Metrics(stress: int, calm: int, focus: int)

  /** `{'stress': 25.0, 'calm': 50.0, 'focus': 50.0}`, the answer when there is nothing to map. */
  const FallbackMetrics := Metrics(250, 500, 500)

  /** `emotion_probs.get(label, 0)`. */
  function Prob(probs: map<string, real>, name: string): real {
    if name in probs then probs[name] else 0.0
  }

  function StressScore(p: map<string, real>): real {
    Prob(p, Anger) * 1.0 + Prob(p, Disgust) * 0.9 + Prob(p, Fear) * 0.9 + Prob(p, Sadness) * 0.5 + Prob(p, Surprise) * 0.2
  }

  function CalmScore(p: map<string, real>): real {
    Prob(p, Neutrality) * 1.0 + Prob(p, Happiness) * 0.8
  }

  function FocusScore(p: map<string, real>): real {
    Prob(p, Neutrality) * 0.8 + Prob(p, Surprise) * 0.6 + Prob(p, Happiness) * 0.5 - Prob(p, Fear) * 0.5 - Prob(p, Anger) * 0.5
  }

  /** `round(max(0.0, min(100.0, score * 100)), 1)`, in tenths. */
  function Tenths(score: real): (t: int)
    ensures 0 <= t <= 1000
    ensures score <= 0.0 ==> t == 0
    ensures score >= 1.0 ==> t == 1000
    ensures 0.0 <= score <= 1.0 ==> score * 1000.0 - 0.5 <= t as real <= score * 1000.0 + 0.5
  {
    var c := Clamp(0.0, 100.0, score * 100.0);
    RoundWithin(c * 10.0, 0, 1000);
    RoundOfInteger(0);
    RoundOfInteger(1000);
    RoundHalfEven(c * 10.0)
  }

  /** `_map_emotions_to_metrics` on a dictionary of numbers. */
  function MapToMetrics(p: map<string, real>): (m: Metrics)
    ensures 0 <= m.stress <= 1000 && 0 <= m.calm <= 1000 && 0 <= m.focus <= 1000
  {
    Metrics(Tenths(StressScore(p)), Tenths(CalmScore(p)), Tenths(FocusScore(p)))
  }

  /** A value in the loosely typed dictionaries `get_emotion_metrics` accepts. */
  datatype Value = Number(x: real) | Mapping(entries: map<string, Value>) | Other

  /** The labels the mapping reads all hold numbers (or are missing). */
  predicate LabelsNumeric(probs: map<string, Value>) {
    forall l :: l in Labels && l in probs ==> probs[l].Number?
  }

  function Numbers(probs: map<string, Value>): map<string, real> {
    map l | l in probs && probs[l].Number? :: probs[l].x
  }

  /**
   * `_map_emotions_to_metrics` on an arbitrary value: a value that is not a
   * dictionary, or a label holding something other than a number, raises
   * inside the mapping and yields the fallback.
   */
  function MapValue(probs: Value): (m: Metrics)
    ensures !probs.Mapping? ==> m == FallbackMetrics
    ensures probs.Mapping? && !LabelsNumeric(probs.entries) ==> m == FallbackMetrics
  {
    if probs.Mapping? && LabelsNumeric(probs.entries) then MapToMetrics(Numbers(probs.entries))
    else FallbackMetrics
  }

  /**
   * `get_emotion_metrics(emotion_data)`: `None`, an empty dictionary or one
   * without `'probs'` gives the fallback; otherwise the mapping of `'probs'`.
   */
  function GetEmotionMetrics(data: Option<map<string, Value>>): (m: Metrics)
    ensures data.None? || "probs" !in data.value ==> m == FallbackMetrics
    ensures data.Some? && "probs" in data.value ==> m == MapValue(data.value["probs"])
  {
    if data.None? || "probs" !in data.value then FallbackMetrics
    else MapValue(data.value["probs"])
  }

  /** The dictionary an analysis result is handed over as. */
  function AsRecord(r: AnalysisResult): map<string, Value> {
    map["emotion" := Other, "probs" := Mapping(map l | l in r.probs :: Number(r.probs[l])), "inferenceMs" := Number(r.inferenceTenths as real / 10.0), "bbox" := Other]
  }

  // ---------------------------------------------------------------------
  // The neutral answer

  /** `_get_neutral_emotion_data()`: every label at 0.0, then "Neutralita'" overwritten with 1.0. */
  method NeutralEmotionData() returns (r: AnalysisResult)
    ensures r.emotion == Neutrality && r.bbox.None? && r.inferenceTenths == 0
    ensures r.probs == NeutralProbs()
  {
    var probs := map l | l in Labels :: 0.0;
    probs := probs[Neutrality := 1.0];
    r := AnalysisResult(Neutrality, probs, 0, None);
  }

  /** The neutral probabilities: certainty on "Neutralita'", nothing on the other six labels. */
  function NeutralProbs(): (p: map<string, real>)
    ensures p.Keys == set l | l in Labels
    ensures p[Neutrality] == 1.0
    ensures forall l :: l in p && l != Neutrality ==> p[l] == 0.0
  {
    (map l | l in Labels :: 0.0)[Neutrality := 1.0]
  }

  // ---------------------------------------------------------------------
  // Lemmas

  /** The mapping reads only the seven labels: dictionaries that agree on them (a missing label counting as 0) map alike. */
  lemma OnlyLabelsMatter(p: map<string, real>, q: map<string, real>)
    requires forall l :: l in Labels ==> Prob(p, l) == Prob(q, l)
    ensures MapToMetrics(p) == MapToMetrics(q)
  {
    assert Labels[0] == Anger && Labels[1] == Disgust && Labels[2] == Fear && Labels[3] == Happiness;
    assert Labels[4] == Neutrality && Labels[5] == Sadness && Labels[6] == Surprise;
    assert StressScore(p) == StressScore(q) && CalmScore(p) == CalmScore(q) && FocusScore(p) == FocusScore(q);
  }

  /** A missing label counts as probability 0. */
  lemma MissingLabelIsZero(p: map<string, real>, name: string)
    requires name !in p
    ensures MapToMetrics(p) == MapToMetrics(p[name := 0.0])
  {
    OnlyLabelsMatter(p, p[name := 0.0]);
  }

  /** Certain neutrality: stress 0, calm 100, focus 80. */
  lemma NeutralMetrics()
    ensures MapToMetrics(map[Neutrality := 1.0]) == Metrics(0, 1000, 800)
  {
    var p := map[Neutrality := 1.0];
    assert Prob(p, Anger) == 0.0 && Prob(p, Disgust) == 0.0 && Prob(p, Fear) == 0.0;
    assert Prob(p, Sadness) == 0.0 && Prob(p, Surprise) == 0.0 && Prob(p, Happiness) == 0.0;
    RoundOfInteger(800);
  }

  /** The neutral answer maps like certain neutrality. */
  lemma NeutralDataMetrics()
    ensures MapToMetrics(NeutralProbs()) == Metrics(0, 1000, 800)
  {
    var p := NeutralProbs();
    forall l | l in Labels
      ensures Prob(p, l) == Prob(map[Neutrality := 1.0], l)
    {
    }
    OnlyLabelsMatter(p, map[Neutrality := 1.0]);
    NeutralMetrics();
  }

  /** Certain anger: stress 100, calm 0, and focus -50 clamped to 0. */
  lemma AngerMetrics()
    ensures MapToMetrics(map[Anger := 1.0]) == Metrics(1000, 0, 0)
  {
    var p := map[Anger := 1.0];
    assert Prob(p, Neutrality) == 0.0 && Prob(p, Disgust) == 0.0 && Prob(p, Fear) == 0.0;
    assert Prob(p, Sadness) == 0.0 && Prob(p, Surprise) == 0.0 && Prob(p, Happiness) == 0.0;
  }

  /** The metrics of an analysis result, handed over as a dictionary, are the mapping of its probabilities. */
  lemma RecordMetrics(r: AnalysisResult)
    ensures GetEmotionMetrics(Some(AsRecord(r))) == MapToMetrics(r.probs)
  {
    var rec := AsRecord(r);
    assert rec["probs"].Mapping?;
    var entries := rec["probs"].entries;
    assert Numbers(entries) == r.probs;
  }
}

=== FILE: models.dfy ===
/**
 * The driver records of app/models.py: the classification and monitoring
 * enumerations, the `Driver` row object and its state methods, the
 * classification history record, and the monitoring session. Timestamps
 * are numbers handed in by the caller.
 */
module Models {
  import opened Wrappers
  import Utils

  /** `Classification`; `ClassificationText` is its `__str__`. */
  datatype Classification = Unclassified | Beginner | Efficient | Expert

  function ClassificationText(c: Classification): string {
    match c
    case Unclassified => "Non Classificato"
    case Beginner => "Principiante"
    case Efficient => "Efficiente"
    case Expert => "Esperto"
  }

  /** `MonitoringStatus`; `StatusText` is its `__str__`. */
  datatype MonitoringStatus = Offline | Online | Monitoring

  function StatusText(s: MonitoringStatus): string {
    match s
    case Offline => "Offline"
    case Online => "Online"
    case Monitoring => "In Corso"
  }

  /** The enumerations print distinct texts, so their values can be read back. */
  lemma EnumTextsDistinct(a: Classification, b: Classification, s: MonitoringStatus, t: MonitoringStatus)
    ensures ClassificationText(a) == ClassificationText(b) ==> a == b
    ensures StatusText(s) == StatusText(t) ==> s == t
  {
  }

  /** Every classification's text has its own badge in the classification style table, never the "unknown" one. */
  lemma EveryClassificationHasBadge(a: Classification, b: Classification)
    ensures Utils.FormatClassification(ClassificationText(a)) != Utils.UnknownStyle
    ensures Utils.FormatClassification(ClassificationText(a)) == Utils.FormatClassification(ClassificationText(b)) ==> a == b
  {
    Utils.KnownClassificationsDistinct(ClassificationText(a), ClassificationText(b));
  }

  /** A row of `classification_results`: who, the classification before (if recorded), after, and the confidence (if any). */
  datatype ClassificationResult = ClassificationResult(
    driverId: int, oldClassification: Option<Classification>, newClassification: Classification, confidence: Option<real>)

  /** `ClassificationResult.to_dict()` without the row id and the timestamp. */
  datatype ResultDict = ResultDict(driverId: int, oldClassification: Option<string>, newClassification: string, confidenceScore: Option<real>)

  /** `ClassificationResult.to_dict`: the enumerations as their texts, an absent old classification as `None`. */
  function ToDict(r: ClassificationResult): (d: ResultDict)
    ensures d.oldClassification.None? <==> r.oldClassification.None?
    ensures r.oldClassification.Some? ==> d.oldClassification == Some(ClassificationText(r.oldClassification.value))
    ensures d.newClassification == ClassificationText(r.newClassification)
    ensures d.driverId == r.driverId && d.confidenceScore == r.confidence
  {
    ResultDict(r.driverId,
               if r.oldClassification.Some? then Some(ClassificationText(r.oldClassification.value)) else None,
               ClassificationText(r.newClassification), r.confidence)
  }

  /** The dictionary determines the record it came from. */
  lemma ToDictInjective(r: ClassificationResult, s: ClassificationResult)
    requires ToDict(r) == ToDict(s)
    ensures r == s
  {
    EnumTextsDistinct(r.newClassification, s.newClassification, Offline, Offline);
    if r.oldClassification.Some? {
      EnumTextsDistinct(r.oldClassification.value, s.oldClassification.value, Offline, Offline);
    }
  }

  /** A row of `drivers`. `id` and `updatedAt` are unset until the row is stored. */
  class Driver {
    var id: Option<int>
    var firstName: string
    var lastName: string
    var classification: Classification
    var monitoringStatus: MonitoringStatus
    var simulationFile: Option<string>
    var updatedAt: Option<int>

    /** `Driver.__init__`, with its defaults: unclassified, offline, no simulation file. */
    constructor (firstName: string, lastName: string, classification: Classification := Unclassified,
                 monitoringStatus: MonitoringStatus := Offline, simulationFile: Option<string> := None)
      ensures this.firstName == firstName && this.lastName == lastName
      ensures this.classification == classification && this.monitoringStatus == monitoringStatus
      ensures this.simulationFile == simulationFile
      ensures id.None? && updatedAt.None?
    {
      id := None;
      updatedAt := None;
      this.firstName := firstName;
      this.lastName := lastName;
      this.classification := classification;
      this.monitoringStatus := monitoringStatus;
      this.simulationFile := simulationFile;
    }

    /** `get_full_name`: first name, one space, last name. */
    function FullName(): (n: string)
      reads this
      ensures |n| == |firstName| + 1 + |lastName|
      ensures n[..|firstName|] == firstName && n[|firstName|] == ' ' && n[|firstName| + 1..] == lastName
    {
      firstName + " " + lastName
    }

    /**
     * `update_classification`: sets the classification and the update time,
     * and returns the history record of the change (old and new value, no
     * confidence).
     */
    method UpdateClassification(newClassification: Classification, now: int) returns (result: ClassificationResult)
      requires id.Some?
      modifies this
      ensures classification == newClassification && updatedAt == Some(now)
      ensures id == old(id) && result == ClassificationResult(old(id).value, Some(old(classification)), newClassification, None)
      ensures firstName == old(firstName) && lastName == old(lastName)
      ensures monitoringStatus == old(monitoringStatus) && simulationFile == old(simulationFile)
    {
      var oldClassification := classification;
      classification := newClassification;
      updatedAt := Some(now);
      result := ClassificationResult(id.value, Some(oldClassification), newClassification, None);
    }

    /** `update_monitoring_status`: sets the status and the update time, nothing else. */
    method UpdateMonitoringStatus(newStatus: MonitoringStatus, now: int)
      modifies this
      ensures monitoringStatus == newStatus && updatedAt == Some(now)
      ensures id == old(id) && firstName == old(firstName) && lastName == old(lastName)
      ensures classification == old(classification) && simulationFile == old(simulationFile)
    {
      monitoringStatus := newStatus;
      updatedAt := Some(now);
    }
  }

  /** The full name splits back into the two names at the space after the first name. */
  lemma FullNameSplits(first: string, last: string, d: Driver)
    requires d.firstName == first && d.lastName == last
    ensures d.FullName()[..|first|] == first && d.FullName()[|first| + 1..] == last
  {
  }

  const ActiveStatus := "active"
  const CompletedStatus := "completed"

  /** A row of `monitoring_sessions`; `startedAt` is the insert-time default, seconds as a real. */
  class MonitoringSession {
    var driverId: int
    var startedAt: real
    var endedAt: Option<real>
    var status: string

    /** `MonitoringSession.__init__`: status "active" unless given, not ended. */
    constructor (driverId: int, startedAt: real, status: string := ActiveStatus)
      ensures this.driverId == driverId && this.startedAt == startedAt && this.status == status
      ensures endedAt.None?
    {
      this.driverId := driverId;
      this.startedAt := startedAt;
      this.status := status;
      endedAt := None;
    }

    /** `end_session`: records the end time and marks the session completed. */
    method EndSession(now: real)
      modifies this
      ensures endedAt == Some(now) && status == CompletedStatus
      ensures driverId == old(driverId) && startedAt == old(startedAt)
      ensures Duration() == Some(now - startedAt)
    {
      endedAt := Some(now);
      status := CompletedStatus;
    }

    /** `get_duration`: seconds from start to end, `None` while the session is open. */
    function Duration(): (d: Option<real>)
      reads this
      ensures d.None? <==> endedAt.None?
      ensures d.Some? ==> startedAt + d.value == endedAt.value
    {
      if endedAt.Some? then Some(endedAt.value - startedAt) else None
    }
  }
}

=== FILE: numeric.dfy ===
/**
 * Numeric helpers shared by the emotion pipeline and the formatters:
 * Python's `round` (ties to even), `int()` truncation, clamping and the
 * first-maximum selection that Python's `max(..., key=...)` performs.
 */
module Numeric {

  /** Python's `round(x)` on a float: the nearest integer, ties go to the even neighbour. */
  function RoundHalfEven(x: real): (n: int)
    ensures x - 0.5 <= n as real <= x + 0.5
    ensures (n as real == x - 0.5 || n as real == x + 0.5) ==> n % 2 == 0
  {
    var f := x.Floor;
    var frac := x - f as real;
    if frac < 0.5 then f
    else if frac > 0.5 then f + 1
    else if f % 2 == 0 then f else f + 1
  }

  /** Rounding an integer gives it back. */
  lemma RoundOfInteger(k: int)
    ensures RoundHalfEven(k as real) == k
  {
  }

  /** Rounding never crosses an integer bound that the argument respects. */
  lemma RoundWithin(x: real, lo: int, hi: int)
    requires lo as real <= x <= hi as real
    ensures lo <= RoundHalfEven(x) <= hi
  {
  }

  /** Python's `int(x)` on a float: truncation toward zero. */
  function Trunc(x: real): (n: int)
    ensures x >= 0.0 ==> n as real <= x < n as real + 1.0
    ensures x < 0.0 ==> n as real - 1.0 < x <= n as real
  {
    if x >= 0.0 then x.Floor else -((-x).Floor)
  }

  /** `max(lo, min(hi, v))`, written as the source writes its clamps. */
  function Clamp(lo: real, hi: real, v: real): (r: real)
    requires lo <= hi
    ensures lo <= r <= hi
    ensures lo <= v <= hi ==> r == v
    ensures v < lo ==> r == lo
    ensures v > hi ==> r == hi
  {
    var upper := if hi < v then hi else v;
    if lo < upper then upper else lo
  }

  function Max(a: real, b: real): real { if a >= b then a else b }

  /**
   * The index Python's `max(items, key=k)` picks when `keys[i] == k(items[i])`:
   * it walks left to right and replaces the best so far only on a strictly
   * greater key, so the first maximal index wins.
   */
  function FirstMaxIndex(keys: seq<real>): (k: nat)
    requires |keys| > 0
    ensures k < |keys|
    ensures forall j :: 0 <= j < |keys| ==> keys[j] <= keys[k]
    ensures forall j :: 0 <= j < k ==> keys[j] < keys[k]
    decreases |keys|
  {
    if |keys| == 1 then 0
    else
      var best := FirstMaxIndex(keys[..|keys| - 1]);
      if keys[|keys| - 1] > keys[best] then |keys| - 1 else best
  }

  /** The first-maximum index is determined by the two properties it guarantees. */
  lemma FirstMaxIndexUnique(keys: seq<real>, k: nat)
    requires k < |keys|
    requires forall j :: 0 <= j < |keys| ==> keys[j] <= keys[k]
    requires forall j :: 0 <= j < k ==> keys[j] < keys[k]
    ensures FirstMaxIndex(keys) == k
  {
  }

  /** Where a Python slice bound `i` lands in a sequence of length `len`: negative bounds count from the end, and both ends are clamped. */
  function SliceIndex(i: int, len: nat): (k: int)
    ensures 0 <= k <= len
    ensures 0 <= i <= len ==> k == i
    ensures -(len as int) <= i < 0 ==> k == i + len
  {
    if i < 0 then (if i + len < 0 then 0 else i + len)
    else if i > len then len else i
  }
}

=== FILE: probabilities.dfy ===
/**
 * Converting the classifier's raw output into a probability vector
 * (app/ai/emotion_detector.py, `_to_probabilities`): output that already is a
 * distribution passes through, anything else goes through a numerically
 * stable softmax, with a uniform fallback when its denominator degenerates.
 */
module Probabilities {
  import opened Wrappers

  /** A double as numpy sees it: a finite value, an infinity, or NaN. */
  datatype Float = Num(r: real) | PosInf | NegInf | NaN

  /** The exponential, left abstract: any function whose values are positive. */
  type PositiveFn = f: real -> real | forall x :: f(x) > 0.0 witness (x: real) => 1.0

  /** What `model.predict` returns: a vector, or a batch of rows (`ndim == 2`). */
  datatype ModelOutput = Vector(v: seq<Float>) | Batch(rows: seq<seq<Float>>)

  /** `atol` passed to `np.isclose`. */
  const AbsTolerance: real := 0.001
  /** `np.isclose`'s default `rtol`, applied to the target value 1.0. */
  const RelTolerance: real := 0.00001
  /** Entries down to -1e-6 are accepted as rounding noise. */
  const NegativeSlack: real := 0.000001

  function Abs(x: real): real { if x < 0.0 then -x else x }

  function Sum(s: seq<real>): real
    decreases |s|
  {
    if s == [] then 0.0 else Sum(s[..|s| - 1]) + s[|s| - 1]
  }

  predicate AllFinite(v: seq<Float>) {
    forall i :: 0 <= i < |v| ==> v[i].Num?
  }

  predicate HasNaN(v: seq<Float>) { exists i :: 0 <= i < |v| && v[i].NaN? }
  predicate HasPosInf(v: seq<Float>) { exists i :: 0 <= i < |v| && v[i].PosInf? }
  predicate HasFinite(v: seq<Float>) { exists i :: 0 <= i < |v| && v[i].Num? }

  function Reals(v: seq<Float>): (r: seq<real>)
    requires AllFinite(v)
    ensures |r| == |v| && forall i :: 0 <= i < |v| ==> r[i] == v[i].r
  {
    seq(|v|, i requires 0 <= i < |v| => v[i].r)
  }

  /** Non-negative entries summing to exactly 1. */
  predicate IsDistribution(p: seq<real>) {
    (forall i :: 0 <= i < |p| ==> p[i] >= 0.0) && Sum(p) == 1.0
  }

  /** The pass-through test: all finite, all >= -1e-6, and `np.isclose(sum, 1.0, atol=1e-3)`. */
  predicate LooksLikeProbabilities(v: seq<Float>) {
    && AllFinite(v)
    && (forall i :: 0 <= i < |v| ==> v[i].r >= -NegativeSlack)
    && Abs(Sum(Reals(v)) - 1.0) <= AbsTolerance + RelTolerance * 1.0
  }

  /** `a < b` in numpy's order on non-NaN values. */
  predicate Below(a: Float, b: Float) {
    match (a, b)
    case (Num(x), Num(y)) => x < y
    case (NegInf, _) => !b.NegInf? && !b.NaN?
    case (_, PosInf) => !a.PosInf? && !a.NaN?
    case _ => false
  }

  /** `np.max` of two values: NaN wins, otherwise the larger. */
  function FMax2(a: Float, b: Float): Float {
    if a.NaN? || b.NaN? then NaN else if Below(a, b) then b else a
  }

  /** `np.max(arr)`, taken left to right. */
  function FMax(v: seq<Float>): Float
    requires |v| > 0
    decreases |v|
  {
    if |v| == 1 then v[0] else FMax2(FMax(v[..|v| - 1]), v[|v| - 1])
  }

  /** Float subtraction. */
  function FSub(a: Float, b: Float): Float {
    match (a, b)
    case (NaN, _) => NaN
    case (_, NaN) => NaN
    case (Num(x), Num(y)) => Num(x - y)
    case (PosInf, PosInf) => NaN
    case (NegInf, NegInf) => NaN
    case (PosInf, _) => PosInf
    case (NegInf, _) => NegInf
    case (Num(_), PosInf) => NegInf
    case (Num(_), NegInf) => PosInf
  }

  /** Float addition. */
  function FAdd(a: Float, b: Float): Float {
    match (a, b)
    case (NaN, _) => NaN
    case (_, NaN) => NaN
    case (PosInf, NegInf) => NaN
    case (NegInf, PosInf) => NaN
    case (PosInf, _) => PosInf
    case (_, PosInf) => PosInf
    case (NegInf, _) => NegInf
    case (_, NegInf) => NegInf
    case (Num(x), Num(y)) => Num(x + y)
  }

  /** `np.exp`: exp(-inf) is 0, exp(+inf) is +inf, NaN stays NaN. */
  function FExp(a: Float, exp: PositiveFn): Float {
    match a
    case Num(x) => Num(exp(x))
    case PosInf => PosInf
    case NegInf => Num(0.0)
    case NaN => NaN
  }

  /** `np.sum`. */
  function FSum(v: seq<Float>): Float
    decreases |v|
  {
    if v == [] then Num(0.0) else FAdd(FSum(v[..|v| - 1]), v[|v| - 1])
  }

  /** `np.exp(arr - np.max(arr))`. */
  function ShiftedExps(v: seq<Float>, exp: PositiveFn): (e: seq<Float>)
    requires |v| > 0
    ensures |e| == |v|
  {
    var m := FMax(v);
    seq(|v|, i requires 0 <= i < |v| => FExp(FSub(v[i], m), exp))
  }

  /** `np.ones_like(arr) / max(1, n)`. */
  function Uniform(n: nat): (u: seq<real>)
    ensures |u| == n
  {
    seq(n, _ => 1.0 / (if n > 1 then n else 1) as real)
  }

  /** The softmax branch: each shifted exponential over their sum, or uniform if the sum is not a positive finite number. */
  function Softmax(v: seq<Float>, exp: PositiveFn): (p: seq<real>)
    requires |v| > 0
    ensures |p| == |v|
  {
    var e := ShiftedExps(v, exp);
    var d := FSum(e);
    if !d.Num? || d.r <= 0.0 then Uniform(|v|)
    else
      FSumFinite(e);
      Quotients(Reals(e), d.r)
  }

  /**
   * `_to_probabilities` on a one-dimensional array. `np.max` of an empty
   * array raises, which the source turns into `None`.
   */
  function Normalize(v: seq<Float>, exp: PositiveFn): (r: Option<seq<real>>)
    ensures r.None? <==> |v| == 0
    ensures r.Some? ==> |r.value| == |v|
    ensures LooksLikeProbabilities(v) ==> r == Some(Reals(v))
  {
    if LooksLikeProbabilities(v) then Some(Reals(v))
    else if |v| == 0 then None
    else Some(Softmax(v, exp))
  }

  /** `_to_probabilities(predictions)`: row 0 of a batch (an empty batch raises), or the vector itself. */
  function ToProbabilities(out: ModelOutput, exp: PositiveFn): (r: Option<seq<real>>)
    ensures out.Vector? ==> r == Normalize(out.v, exp)
    ensures out.Batch? ==> (r.None? <==> |out.rows| == 0 || |out.rows[0]| == 0)
    ensures out.Batch? && |out.rows| > 0 ==> r == Normalize(out.rows[0], exp)
  {
    match out
    case Vector(v) => Normalize(v, exp)
    case Batch(rows) => if |rows| == 0 then None else Normalize(rows[0], exp)
  }

  // ---------------------------------------------------------------------
  // Lemmas

  /** The float sum is a number exactly when every entry is, and then it is the real sum. */
  lemma {:induction false} FSumFinite(e: seq<Float>)
    ensures FSum(e).Num? <==> AllFinite(e)
    ensures AllFinite(e) ==> FSum(e).r == Sum(Reals(e))
    decreases |e|
  {
    if e != [] {
      var init := e[..|e| - 1];
      FSumFinite(init);
      assert forall i :: 0 <= i < |init| ==> init[i] == e[i];
      if AllFinite(e) {
        assert Reals(e)[..|e| - 1] == Reals(init);
      } else if AllFinite(init) {
        assert !e[|e| - 1].Num?;
      }
    }
  }

  /** Dividing every entry by `d` divides the sum by `d`. */
  lemma {:induction false} SumScaled(s: seq<real>, d: real)
    requires d != 0.0
    ensures Sum(Quotients(s, d)) == Sum(s) / d
    decreases |s|
  {
    if s != [] {
      var init := s[..|s| - 1];
      SumScaled(init, d);
      assert Quotients(s, d)[..|s| - 1] == Quotients(init, d);
    }
  }

  /** `n` copies of `c` sum to `n * c`. */
  lemma {:induction false} SumConstant(n: nat, c: real)
    ensures Sum(seq(n, _ => c)) == n as real * c
    decreases n
  {
    if n > 0 {
      SumConstant(n - 1, c);
      assert seq(n, _ => c)[..n - 1] == seq(n - 1, _ => c);
    }
  }

  /** A sum of non-negative entries, one of them positive, is positive. */
  lemma {:induction false} SumPositive(s: seq<real>, k: nat)
    requires k < |s|
    requires forall i :: 0 <= i < |s| ==> s[i] >= 0.0
    requires s[k] > 0.0
    ensures Sum(s) > 0.0
    decreases |s|
  {
    var init := s[..|s| - 1];
    if k < |s| - 1 {
      SumPositive(init, k);
    } else {
      SumNonNegative(init);
    }
  }

  lemma {:induction false} SumNonNegative(s: seq<real>)
    requires forall i :: 0 <= i < |s| ==> s[i] >= 0.0
    ensures Sum(s) >= 0.0
    decreases |s|
  {
    if s != [] {
      SumNonNegative(s[..|s| - 1]);
    }
  }

  /** The uniform fallback is a distribution. */
  lemma UniformIsDistribution(n: nat)
    requires n > 0
    ensures IsDistribution(Uniform(n))
  {
    SumConstant(n, 1.0 / n as real);
    assert Uniform(n) == seq(n, _ => 1.0 / n as real);
  }

  /**
   * `np.max` is NaN when some entry is NaN; otherwise +inf when some entry
   * is +inf; otherwise the largest finite entry when some entry is finite;
   * otherwise (all -inf) -inf.
   */
  lemma {:induction false} FMaxKind(v: seq<Float>)
    requires |v| > 0
    ensures HasNaN(v) <==> FMax(v).NaN?
    ensures !HasNaN(v) ==> (HasPosInf(v) <==> FMax(v).PosInf?)
    ensures !HasNaN(v) && !HasPosInf(v) ==> (HasFinite(v) <==> FMax(v).Num?)
    ensures FMax(v).Num? ==> forall i :: 0 <= i < |v| && v[i].Num? ==> v[i].r <= FMax(v).r
    ensures FMax(v).Num? ==> exists i :: 0 <= i < |v| && v[i] == FMax(v)
    decreases |v|
  {
    if |v| > 1 {
      var init := v[..|v| - 1];
      FMaxKind(init);
      assert forall i :: 0 <= i < |init| ==> init[i] == v[i];
      assert HasNaN(v) <==> HasNaN(init) || v[|v| - 1].NaN?;
      assert HasPosInf(v) <==> HasPosInf(init) || v[|v| - 1].PosInf?;
      assert HasFinite(v) <==> HasFinite(init) || v[|v| - 1].Num?;
    }
  }

  /**
   * Without NaN or +inf and with at least one finite entry, every shifted
   * exponential is a non-negative number, the finite entries give positive
   * ones, and their sum is a positive number: the softmax branch is taken.
   */
  lemma SoftmaxDenominatorPositive(v: seq<Float>, exp: PositiveFn)
    requires |v| > 0 && !HasNaN(v) && !HasPosInf(v) && HasFinite(v)
    ensures var e := ShiftedExps(v, exp);
            AllFinite(e) && (forall i :: 0 <= i < |v| ==> e[i].r >= 0.0)
            && (forall i :: 0 <= i < |v| && v[i].Num? ==> e[i].r > 0.0)
            && FSum(e).Num? && FSum(e).r > 0.0
  {
    FMaxKind(v);
    var e := ShiftedExps(v, exp);
    assert AllFinite(e);
    var k :| 0 <= k < |v| && v[k].Num?;
    FSumFinite(e);
    SumPositive(Reals(e), k);
  }

  /**
   * A NaN, a +inf, or nothing but -inf makes the softmax denominator NaN,
   * so the output falls back to the uniform distribution.
   */
  lemma DegenerateInputGivesUniform(v: seq<Float>, exp: PositiveFn)
    requires |v| > 0 && !LooksLikeProbabilities(v)
    requires HasNaN(v) || HasPosInf(v) || !HasFinite(v)
    ensures Normalize(v, exp) == Some(Uniform(|v|))
  {
    FMaxKind(v);
    var e := ShiftedExps(v, exp);
    var k: nat;
    if HasNaN(v) {
      k :| k < |v| && v[k].NaN?;
    } else if HasPosInf(v) {
      k :| k < |v| && v[k].PosInf?;
    } else {
      k := 0;
    }
    assert e[k].NaN?;
    FSumFinite(e);
  }

  /**
   * Whatever the raw output, once it is not passed through, the result is a
   * distribution: non-negative entries summing to 1.
   */
  lemma SoftmaxIsDistribution(v: seq<Float>, exp: PositiveFn)
    requires |v| > 0
    ensures IsDistribution(Softmax(v, exp))
  {
    var e := ShiftedExps(v, exp);
    var d := FSum(e);
    if !d.Num? || d.r <= 0.0 {
      UniformIsDistribution(|v|);
    } else {
      FSumFinite(e);
      ExpsNonNegative(v, exp);
      QuotientsAreDistribution(Reals(e), d.r);
      assert Softmax(v, exp) == Quotients(Reals(e), d.r);
    }
  }

  /** Every shifted exponential that is a number is non-negative. */
  lemma ExpsNonNegative(v: seq<Float>, exp: PositiveFn)
    requires |v| > 0
    ensures forall i :: 0 <= i < |v| && ShiftedExps(v, exp)[i].Num? ==> ShiftedExps(v, exp)[i].r >= 0.0
  {
  }

  function Quotients(s: seq<real>, d: real): (q: seq<real>)
    requires d != 0.0
    ensures |q| == |s|
  {
    seq(|s|, i requires 0 <= i < |s| => s[i] / d)
  }

  lemma DivideBySelf(d: real)
    requires d != 0.0
    ensures d / d == 1.0
  {
  }

  /** Non-negative values over their positive sum form a distribution. */
  lemma QuotientsAreDistribution(s: seq<real>, d: real)
    requires d > 0.0 && Sum(s) == d
    requires forall i :: 0 <= i < |s| ==> s[i] >= 0.0
    ensures IsDistribution(Quotients(s, d))
  {
    SumScaled(s, d);
    DivideBySelf(d);
    forall i | 0 <= i < |s|
      ensures Quotients(s, d)[i] >= 0.0
    {
      assert Quotients(s, d)[i] * d == s[i];
    }
  }

  /**
   * The overall guarantee of `_to_probabilities` on a non-empty array: the
   * input unchanged when it already looks like a distribution, otherwise a
   * distribution whose entries are all positive when every input is finite.
   */
  lemma NormalizeGuarantee(v: seq<Float>, exp: PositiveFn)
    requires |v| > 0
    ensures Normalize(v, exp).Some?
    ensures LooksLikeProbabilities(v) ==> Normalize(v, exp).value == Reals(v)
    ensures !LooksLikeProbabilities(v) ==> IsDistribution(Normalize(v, exp).value)
    ensures !LooksLikeProbabilities(v) && AllFinite(v) ==>
              forall i :: 0 <= i < |v| ==> Normalize(v, exp).value[i] > 0.0
  {
    if !LooksLikeProbabilities(v) {
      SoftmaxIsDistribution(v, exp);
      if AllFinite(v) {
        SoftmaxPositive(v, exp);
      }
    }
  }

  /** On finite input the softmax branch is taken and every entry is positive. */
  lemma SoftmaxPositive(v: seq<Float>, exp: PositiveFn)
    requires |v| > 0 && AllFinite(v)
    ensures forall i :: 0 <= i < |v| ==> Softmax(v, exp)[i] > 0.0
  {
    assert v[0].Num?;
    assert !HasNaN(v) && !HasPosInf(v);
    SoftmaxDenominatorPositive(v, exp);
    var e := ShiftedExps(v, exp);
    FSumFinite(e);
    QuotientsPositive(Reals(e), FSum(e).r);
  }

  lemma QuotientsPositive(s: seq<real>, d: real)
    requires d > 0.0
    requires forall i :: 0 <= i < |s| ==> s[i] > 0.0
    ensures forall i :: 0 <= i < |s| ==> Quotients(s, d)[i] > 0.0
  {
    forall i | 0 <= i < |s|
      ensures Quotients(s, d)[i] > 0.0
    {
      assert Quotients(s, d)[i] * d == s[i];
    }
  }

  /**
   * Every vector `_to_probabilities` returns is a distribution up to the
   * pass-through tolerances: entries no lower than -1e-6, sum within
   * 1e-3 + 1e-5 of 1.
   */
  lemma NormalizeNearDistribution(v: seq<Float>, exp: PositiveFn)
    requires Normalize(v, exp).Some?
    ensures var p := Normalize(v, exp).value;
            (forall i :: 0 <= i < |p| ==> p[i] >= -NegativeSlack)
            && Abs(Sum(p) - 1.0) <= AbsTolerance + RelTolerance
  {
    NormalizeGuarantee(v, exp);
  }
}

=== FILE: services.dfy ===
/**
 * The driver rules of app/services.py over an in-memory table from id to
 * `Driver`: creating, renaming, deleting and looking up drivers, the
 * monitoring status switches, and the checks and bookkeeping of a
 * classification. The database session is the table itself; ids come from
 * a counter.
 */
module Services {
  import opened Wrappers
  import opened Text
  import opened Models
  import Config

  /** `str.title()`, left abstract: it maps the empty string, and only it, to the empty string. */
  type TitleFn = f: string -> string | forall s :: f(s) == [] <==> s == [] witness (s: string) => s

  /** An uploaded file (`FileStorage`) by its client-side name. */
  datatype Upload = Upload(filename: string)

  /** A `FileStorage` counts as given when it has a file name. */
  predicate Supplied(u: Option<Upload>) {
    u.Some? && u.value.filename != []
  }

  /** The `ValueError`s the services raise, by cause. */
  datatype ServiceError =
    | NotFound(id: int)
    | FirstNameRequired | LastNameRequired
    | FirstNameEmpty | FirstNameTooShort | LastNameEmpty | LastNameTooShort
    | DuplicateName(first: string, last: string)
    | OnlyCsvAllowed
    | NoSimulationFile

  /** A driver's two names. */
  datatype Names = Names(first: string, last: string)

  /** The decimal text of `n`, as an f-string prints an `int`. */
  function Digits(n: nat): (s: string)
    ensures s != [] && forall i :: 0 <= i < |s| ==> '0' <= s[i] <= '9'
  {
    var d := ['0' + (n % 10) as char];
    if n < 10 then d else Digits(n / 10) + d
  }

  /** The number a text of decimal digits denotes. */
  function DecimalValue(s: string): nat
    requires forall i :: 0 <= i < |s| ==> '0' <= s[i] <= '9'
    decreases |s|
  {
    if s == [] then 0 else DecimalValue(s[..|s| - 1]) * 10 + (s[|s| - 1] as int - '0' as int)
  }

  /** `Digits` is the decimal representation: reading it back gives the number, so distinct timestamps give distinct texts. */
  lemma {:induction false} DigitsValue(n: nat)
    ensures DecimalValue(Digits(n)) == n
    decreases n
  {
    var s := Digits(n);
    assert s[|s| - 1] as int - '0' as int == n % 10;
    if n >= 10 {
      DigitsValue(n / 10);
      assert s[..|s| - 1] == Digits(n / 10);
    }
  }

  const CsvSuffix := ".csv"

  /** No two ids carry the same names. */
  predicate Injective(t: map<int, Names>) {
    forall a, b :: a in t && b in t && a != b ==> t[a] != t[b]
  }

  /** The names of every driver but `id`. */
  function Others(t: map<int, Names>, id: int): set<Names> {
    set k | k in t && k != id :: t[k]
  }

  /** Giving one id names no other id carries keeps the table injective. */
  lemma {:induction false} ReplaceKeepsInjective(t: map<int, Names>, id: int, n: Names)
    requires Injective(t) && n !in Others(t, id)
    ensures Injective(t[id := n])
  {
    var u := t[id := n];
    forall a, b | a in u && b in u && a != b
      ensures u[a] != u[b]
    {
      if a == id {
        assert t[b] in Others(t, id);
      } else if b == id {
        assert t[a] in Others(t, id);
      }
    }
  }

  /**
   * The checks `create_driver` makes, in order, before it stores anything;
   * `taken` holds the names already in use.
   */
  function CreateCheck(first: string, last: string, upload: Option<Upload>, taken: set<Names>, title: TitleFn): (e: Option<ServiceError>)
    ensures Strip(first) == [] ==> e == Some(FirstNameRequired)
    ensures Strip(first) != [] && Strip(last) == [] ==> e == Some(LastNameRequired)
    ensures e.None? ==> var n := Names(title(Strip(first)), title(Strip(last)));
                        n.first != [] && n.last != [] && n !in taken
    ensures e.None? ==> !Supplied(upload) || Config.ValidateFileExtension(upload.value.filename)
    ensures e == Some(OnlyCsvAllowed) ==> Supplied(upload) && !Config.ValidateFileExtension(upload.value.filename)
    ensures Strip(first) != [] && Strip(last) != [] ==>
              var n := Names(title(Strip(first)), title(Strip(last)));
              (n in taken ==> e == Some(DuplicateName(n.first, n.last)))
              && (e.None? <==> n !in taken && (!Supplied(upload) || Config.ValidateFileExtension(upload.value.filename)))
    ensures e.Some? && e.value.DuplicateName? ==> Names(e.value.first, e.value.last) in taken
  {
    if Strip(first) == [] then Some(FirstNameRequired)
    else if Strip(last) == [] then Some(LastNameRequired)
    else if Names(title(Strip(first)), title(Strip(last))) in taken then Some(DuplicateName(title(Strip(first)), title(Strip(last))))
    else if Supplied(upload) && !Config.ValidateFileExtension(upload.value.filename) then Some(OnlyCsvAllowed)
    else None
  }

  /** Changing the entry of `id` does not change what the other drivers are called. */
  lemma {:induction false} OthersIgnoresOwn(t: map<int, Names>, id: int, n: Names)
    requires id in t
    ensures Others(t[id := n], id) == Others(t, id)
  {
    forall x | x in Others(t, id)
      ensures x in Others(t[id := n], id)
    {
      var k :| k in t && k != id && t[k] == x;
      assert t[id := n][k] == x;
    }
  }

  /**
   * The first-name block of `update_driver`: a given first name is stripped
   * and title-cased, must be at least two characters long, and together
   * with the last name the driver would then have (the new one when a
   * non-empty one is given) must not be another driver's; the result is the
   * error raised or the names after the assignment.
   */
  function FirstNameStep(cur: Names, first: Option<string>, last: Option<string>, others: set<Names>, title: TitleFn): (r: Result<Names, ServiceError>)
    ensures first.None? ==> r == Ok(cur)
    ensures first.Some? && Strip(first.value) == [] ==> r == Err(FirstNameEmpty)
    ensures first.Some? && |title(Strip(first.value))| < 2 ==> r.Err?
    ensures r.Ok? ==> r.value.last == cur.last
    ensures r.Ok? && first.Some? ==> r.value.first == title(Strip(first.value)) && |r.value.first| >= 2
    ensures r.Ok? && first.Some? && last.Some? && last.value != [] ==> Names(r.value.first, title(Strip(last.value))) !in others
    ensures r.Ok? && first.Some? && (last.None? || last.value == []) ==> r.value !in others
    ensures r.Err? && r.error.DuplicateName? ==> Names(r.error.first, r.error.last) in others
  {
    if first.None? then Ok(cur)
    else
      var f := title(Strip(first.value));
      var l := if last.Some? && last.value != [] then title(Strip(last.value)) else cur.last;
      if f == [] then Err(FirstNameEmpty)
      else if |f| < 2 then Err(FirstNameTooShort)
      else if Names(f, l) in others then Err(DuplicateName(f, l))
      else Ok(cur.(first := f))
  }

  /**
   * The last-name block of `update_driver`; `first` is the first-name
   * argument as the first block left it. A given last name is stripped and
   * title-cased, must be at least two characters long, and must not, with
   * the (re-normalised) first name, be another driver's.
   */
  function LastNameStep(cur: Names, first: Option<string>, last: Option<string>, others: set<Names>, title: TitleFn): (r: (Option<ServiceError>, Names))
    ensures last.None? ==> r == (None, cur)
    ensures r.0.Some? ==> r.1 == cur
    ensures last.Some? && Strip(last.value) == [] ==> r.0 == Some(LastNameEmpty)
    ensures last.Some? && |title(Strip(last.value))| < 2 ==> r.0.Some?
    ensures r.1.first == cur.first
    ensures r.0.None? && last.Some? ==> r.1.last == title(Strip(last.value)) && |r.1.last| >= 2
    ensures r.0.None? && last.Some? && (first.None? || title(Strip(first.value)) == cur.first) ==> r.1 !in others
    ensures r.0.Some? && r.0.value.DuplicateName? ==> Names(r.0.value.first, r.0.value.last) in others
  {
    if last.None? then (None, cur)
    else
      var l := title(Strip(last.value));
      var f := if first.Some? && first.value != [] then title(Strip(first.value)) else cur.first;
      if l == [] then (Some(LastNameEmpty), cur)
      else if |l| < 2 then (Some(LastNameTooShort), cur)
      else if Names(f, l) in others then (Some(DuplicateName(f, l)), cur)
      else (None, cur.(last := l))
  }

  /**
   * The name part of `update_driver` on the driver's names `cur`, `others`
   * holding the names of every other driver: the error raised, if any, and
   * the names the driver holds afterwards. The first name is assigned
   * before the last name is checked, so a last-name error leaves the new
   * first name behind.
   */
  function RenameStep(cur: Names, first: Option<string>, last: Option<string>, others: set<Names>, title: TitleFn): (r: (Option<ServiceError>, Names))
    ensures first.None? ==> r.1.first == cur.first
    ensures last.None? ==> r.1.last == cur.last
    ensures first.Some? && |title(Strip(first.value))| < 2 ==> r.0.Some? && r.1 == cur
    ensures last.Some? && |title(Strip(last.value))| < 2 ==> r.0.Some?
    ensures r.0.Some? && r.0.value.DuplicateName? ==> Names(r.0.value.first, r.0.value.last) in others
    ensures r.0.None? ==> (first.Some? ==> r.1.first == title(Strip(first.value)) && |r.1.first| >= 2)
                          && (last.Some? ==> r.1.last == title(Strip(last.value)) && |r.1.last| >= 2)
  {
    var step := FirstNameStep(cur, first, last, others, title);
    if step.Err? then (Some(step.error), cur)
    else LastNameStep(step.value, if first.Some? then Some(step.value.first) else None, last, others, title)
  }

  /** A successful rename of a driver whose names were its own ends on names no other driver has. */
  lemma {:induction false} RenameKeepsNamesUnique(cur: Names, first: Option<string>, last: Option<string>, others: set<Names>, title: TitleFn)
    requires cur !in others
    requires RenameStep(cur, first, last, others, title).0.None?
    ensures RenameStep(cur, first, last, others, title).1 !in others
  {
  }

  /** A driver's names are as `create_driver` would store them. */
  predicate Normalised(n: Names, title: TitleFn) {
    title(Strip(n.first)) == n.first && title(Strip(n.last)) == n.last && |n.first| >= 2 && |n.last| >= 2
  }

  /**
   * The duplicate check leaves the driver itself out: renaming a driver to
   * the names it already has succeeds and changes nothing, as long as no
   * other driver has them.
   */
  lemma {:induction false} RenameToOwnNames(cur: Names, others: set<Names>, title: TitleFn)
    requires Normalised(cur, title) && cur !in others
    ensures RenameStep(cur, Some(cur.first), Some(cur.last), others, title) == (None, cur)
  {
    assert cur.last != [];
  }

  /**
   * As written, a failed last-name check comes after the first name was
   * assigned: the error is raised, yet the driver keeps the new first name.
   */
  lemma {:induction false} PartialRenameOnError(cur: Names, f: string, l: string, others: set<Names>, title: TitleFn)
    requires |title(Strip(f))| >= 2 && |title(Strip(l))| == 1
    requires Names(title(Strip(f)), title(Strip(l))) !in others
    ensures RenameStep(cur, Some(f), Some(l), others, title) == (Some(LastNameTooShort), Names(title(Strip(f)), cur.last))
  {
    assert Strip(l) != [];
  }

  /** The driver table with its id counter and the classification history. */
  class Registry {
    var drivers: map<int, Driver>
    var nextId: int
    var history: seq<ClassificationResult>
    /** `str.title()`. */
    const title: TitleFn
    /** `secure_filename(name.lower())`, left abstract. */
    const secureLower: string -> string

    /** Every stored driver carries its own key as id, and the counter is past every id. */
    ghost predicate Valid()
      reads this, drivers.Values
    {
      forall k :: k in drivers ==> drivers[k].id == Some(k) && k < nextId
    }

    /** The names of every stored driver, by id. */
    function Table(): (t: map<int, Names>)
      reads this, drivers.Values
      ensures t.Keys == drivers.Keys
    {
      map k | k in drivers :: Names(drivers[k].firstName, drivers[k].lastName)
    }

    /** The stored name `sim_<first>_<last>_<timestamp>.csv` of a simulation file. */
    function StoredName(first: string, last: string, timestamp: nat): string
    {
      "sim_" + secureLower(first) + "_" + secureLower(last) + "_" + Digits(timestamp) + CsvSuffix
    }

    /** A stored simulation file name passes the extension check itself. */
    lemma {:induction false} StoredNameAccepted(first: string, last: string, timestamp: nat)
      ensures Config.ValidateFileExtension(StoredName(first, last, timestamp))
    {
      var name := StoredName(first, last, timestamp);
      assert name[|name| - 4] == '.';
      assert name[|name| - 3..] == "csv";
      assert Lower("csv") == "csv";
    }

    constructor (title: TitleFn, secureLower: string -> string)
      ensures drivers == map[] && history == [] && nextId == 1
      ensures this.title == title && this.secureLower == secureLower
      ensures Valid()
    {
      drivers := map[];
      nextId := 1;
      history := [];
      this.title := title;
      this.secureLower := secureLower;
    }

    /** `DriverService.get_driver_by_id`. */
    method GetDriverById(id: int) returns (d: Option<Driver>)
      ensures d.Some? <==> id in drivers
      ensures d.Some? ==> d.value == drivers[id]
    {
      if id in drivers {
        return Some(drivers[id]);
      }
      return None;
    }

    /**
     * `DriverService.create_driver`: blank names are refused, names are
     * stripped and title-cased, a driver with the same names is refused, and
     * so is an upload that is not a CSV file; otherwise exactly one new
     * driver is stored, unclassified and offline, with the stored file name
     * when a file was given.
     */
    method CreateDriver(first: string, last: string, upload: Option<Upload>, now: nat) returns (r: Result<Driver, ServiceError>)
      requires Valid()
      modifies this
      ensures Valid() && history == old(history)
      ensures var check := CreateCheck(first, last, upload, old(Table()).Values, title);
              (r.Err? <==> check.Some?) && (r.Err? ==> r.error == check.value)
      ensures r.Err? ==> drivers == old(drivers) && nextId == old(nextId)
      ensures r.Ok? ==> fresh(r.value) && old(nextId) !in old(drivers) && drivers == old(drivers)[old(nextId) := r.value]
      ensures r.Ok? ==> Table() == old(Table())[old(nextId) := Names(title(Strip(first)), title(Strip(last)))]
      ensures r.Ok? ==> var d := r.value;
                        && d.classification == Unclassified && d.monitoringStatus == Offline
                        && d.simulationFile == (if Supplied(upload) then Some(StoredName(d.firstName, d.lastName, now)) else None)
      ensures Injective(old(Table())) ==> Injective(Table())
    {
      var t := Table();
      var check := CreateCheck(first, last, upload, t.Values, title);
      if check.Some? {
        return Err(check.value);
      }
      var firstName := title(Strip(first));
      var lastName := title(Strip(last));
      var simulationFilename: Option<string> := None;
      if Supplied(upload) {
        simulationFilename := Some(StoredName(firstName, lastName, now));
      }
      var driver := Insert(firstName, lastName, simulationFilename, now);
      assert Others(t, nextId - 1) <= t.Values;
      if Injective(t) {
        ReplaceKeepsInjective(t, nextId - 1, Names(firstName, lastName));
      }
      r := Ok(driver);
    }

    /** `Driver(...)`, `db.session.add` and the commit that gives the new row the next id. */
    method Insert(firstName: string, lastName: string, simulationFile: Option<string>, now: int) returns (driver: Driver)
      requires Valid()
      modifies this
      ensures fresh(driver) && drivers == old(drivers)[old(nextId) := driver] && nextId == old(nextId) + 1
      ensures driver.firstName == firstName && driver.lastName == lastName && driver.simulationFile == simulationFile
      ensures driver.classification == Unclassified && driver.monitoringStatus == Offline && driver.updatedAt == Some(now)
      ensures history == old(history) && Valid()
      ensures Table() == old(Table())[old(nextId) := Names(firstName, lastName)]
    {
      driver := new Driver(firstName, lastName, simulationFile := simulationFile);
      driver.id := Some(nextId);
      driver.updatedAt := Some(now);
      drivers := drivers[nextId := driver];
      nextId := nextId + 1;
    }

    /**
     * `DriverService.update_driver`: an unknown id is refused; the names go
     * through the two name blocks (`RenameStep`) against the other drivers'
     * names; then a given file must be a CSV file and is stored under the
     * driver's names. Only the driver itself is touched, and of it only the
     * names and the file name.
     */
    method UpdateDriver(id: int, first: Option<string>, last: Option<string>, upload: Option<Upload>, now: nat)
      returns (r: Result<Driver, ServiceError>)
      requires Valid()
      modifies if id in drivers then {drivers[id]} else {}
      ensures drivers == old(drivers) && Valid()
      ensures id !in drivers ==> r == Err(NotFound(id))
      ensures id in drivers ==>
                var d := drivers[id];
                var (err, names) := RenameStep(Names(old(d.firstName), old(d.lastName)), first, last, old(Others(Table(), id)), title);
                var fileOk := !Supplied(upload) || Config.ValidateFileExtension(upload.value.filename);
                && d.firstName == names.first && d.lastName == names.last
                && (err.Some? ==> r == Err(err.value))
                && (err.None? && !fileOk ==> r == Err(OnlyCsvAllowed))
                && (err.None? && fileOk ==> r == Ok(d))
                && d.simulationFile == (if err.None? && fileOk && Supplied(upload) then Some(StoredName(names.first, names.last, now))
                                        else old(d.simulationFile))
                && d.classification == old(d.classification) && d.monitoringStatus == old(d.monitoringStatus)
                && d.updatedAt == old(d.updatedAt)
      ensures id in drivers && r.Ok? && Names(old(drivers[id].firstName), old(drivers[id].lastName)) !in old(Others(Table(), id)) ==>
                Names(drivers[id].firstName, drivers[id].lastName) !in old(Others(Table(), id))
    {
      if id !in drivers {
        return Err(NotFound(id));
      }
      var driver := drivers[id];
      ghost var cur := Names(driver.firstName, driver.lastName);
      ghost var others := Others(Table(), id);
      var err := RenameDriver(id, first, last);
      if err.Some? {
        return Err(err.value);
      }
      if cur !in others {
        RenameKeepsNamesUnique(cur, first, last, others, title);
      }
      r := ReplaceSimulationFile(id, upload, now);
    }

    /** The two name blocks of `update_driver`, one after the other. */
    method RenameDriver(id: int, first: Option<string>, last: Option<string>) returns (err: Option<ServiceError>)
      requires Valid() && id in drivers
      modifies drivers[id]
      ensures Valid()
      ensures var d := drivers[id];
              var (e, names) := RenameStep(Names(old(d.firstName), old(d.lastName)), first, last, old(Others(Table(), id)), title);
              err == e && d.firstName == names.first && d.lastName == names.last
      ensures Unchanged(drivers[id])
    {
      var others := Others(Table(), id);
      var firstName;
      err, firstName := RenameFirstName(id, first, last, others);
      if err.Some? {
        return;
      }
      err := RenameLastName(id, firstName, last, others);
    }

    /**
     * The first-name block of `update_driver`; `firstName` is the argument
     * as the block leaves it, stripped and title-cased when given.
     */
    method RenameFirstName(id: int, first: Option<string>, last: Option<string>, others: set<Names>)
      returns (err: Option<ServiceError>, firstName: Option<string>)
      requires Valid() && id in drivers
      modifies drivers[id]
      ensures Valid()
      ensures var d := drivers[id];
              var step := FirstNameStep(Names(old(d.firstName), old(d.lastName)), first, last, others, title);
              && (step.Err? ==> err == Some(step.error) && d.firstName == old(d.firstName))
              && (step.Ok? ==> err == None && d.firstName == step.value.first
                               && firstName == (if first.Some? then Some(step.value.first) else None))
              && d.lastName == old(d.lastName)
      ensures Unchanged(drivers[id])
    {
      var driver := drivers[id];
      firstName := first;
      if first.Some? {
        var f := title(Strip(first.value));
        if f == [] {
          return Some(FirstNameEmpty), firstName;
        }
        if |f| < 2 {
          return Some(FirstNameTooShort), firstName;
        }
        var l := if last.Some? && last.value != [] then title(Strip(last.value)) else driver.lastName;
        if Names(f, l) in others {
          return Some(DuplicateName(f, l)), firstName;
        }
        SetFirstName(id, f);
        firstName := Some(f);
      }
      return None, firstName;
    }

    /**
     * The last-name block of `update_driver`, after the first-name block left
     * the first-name argument as `firstName`.
     */
    method RenameLastName(id: int, firstName: Option<string>, last: Option<string>, others: set<Names>) returns (err: Option<ServiceError>)
      requires Valid() && id in drivers
      modifies drivers[id]
      ensures Valid()
      ensures var d := drivers[id];
              var (e, names) := LastNameStep(Names(old(d.firstName), old(d.lastName)), firstName, last, others, title);
              err == e && d.firstName == names.first && d.lastName == names.last
      ensures Unchanged(drivers[id])
    {
      var driver := drivers[id];
      if last.Some? {
        var l := title(Strip(last.value));
        if l == [] {
          return Some(LastNameEmpty);
        }
        if |l| < 2 {
          return Some(LastNameTooShort);
        }
        var f := if firstName.Some? && firstName.value != [] then title(Strip(firstName.value)) else driver.firstName;
        if Names(f, l) in others {
          return Some(DuplicateName(f, l));
        }
        SetLastName(id, l);
      }
      return None;
    }

    /**
     * The file block of `update_driver`: a given file must be a CSV file and
     * is stored under the driver's current names.
     */
    method ReplaceSimulationFile(id: int, upload: Option<Upload>, now: nat) returns (r: Result<Driver, ServiceError>)
      requires Valid() && id in drivers
      modifies drivers[id]
      ensures Valid()
      ensures var d := drivers[id];
              var fileOk := !Supplied(upload) || Config.ValidateFileExtension(upload.value.filename);
              && (fileOk ==> r == Ok(d)) && (!fileOk ==> r == Err(OnlyCsvAllowed))
              && d.simulationFile == (if fileOk && Supplied(upload) then Some(StoredName(d.firstName, d.lastName, now)) else old(d.simulationFile))
              && d.firstName == old(d.firstName) && d.lastName == old(d.lastName)
              && d.classification == old(d.classification) && d.monitoringStatus == old(d.monitoringStatus)
              && d.updatedAt == old(d.updatedAt)
    {
      var driver := drivers[id];
      if Supplied(upload) {
        if !Config.ValidateFileExtension(upload.value.filename) {
          return Err(OnlyCsvAllowed);
        }
        SetSimulationFile(id, StoredName(driver.firstName, driver.lastName, now));
      }
      return Ok(driver);
    }

    /** `driver.first_name = ...` on the stored driver `id`. */
    method SetFirstName(id: int, f: string)
      requires Valid() && id in drivers
      modifies drivers[id]
      ensures Valid() && drivers[id].firstName == f && drivers[id].lastName == old(drivers[id].lastName)
      ensures Unchanged(drivers[id])
    {
      drivers[id].firstName := f;
    }

    /** `driver.last_name = ...` on the stored driver `id`. */
    method SetLastName(id: int, l: string)
      requires Valid() && id in drivers
      modifies drivers[id]
      ensures Valid() && drivers[id].lastName == l && drivers[id].firstName == old(drivers[id].firstName)
      ensures Unchanged(drivers[id])
    {
      drivers[id].lastName := l;
    }

    /** `driver.simulation_file = ...` on the stored driver `id`. */
    method SetSimulationFile(id: int, name: string)
      requires Valid() && id in drivers
      modifies drivers[id]
      ensures Valid() && drivers[id].simulationFile == Some(name)
      ensures drivers[id].firstName == old(drivers[id].firstName) && drivers[id].lastName == old(drivers[id].lastName)
      ensures drivers[id].classification == old(drivers[id].classification)
      ensures drivers[id].monitoringStatus == old(drivers[id].monitoringStatus) && drivers[id].updatedAt == old(drivers[id].updatedAt)
    {
      drivers[id].simulationFile := Some(name);
    }

    /**
     * `DriverService.delete_driver`: false and no change for an unknown id;
     * otherwise exactly that driver is removed, together with its
     * classification history (the relationship cascades), and the result is true.
     */
    method DeleteDriver(id: int) returns (deleted: bool)
      requires Valid()
      modifies this
      ensures Valid() && nextId == old(nextId)
      ensures deleted <==> id in old(drivers)
      ensures drivers == old(drivers) - {id}
      ensures !deleted ==> history == old(history)
      ensures deleted ==> history == WithoutDriver(old(history), id)
      ensures Injective(old(Table())) ==> Injective(Table())
    {
      if id !in drivers {
        return false;
      }
      drivers := drivers - {id};
      history := WithoutDriver(history, id);
      return true;
    }

    /** `DriverService.update_driver_monitoring_status`: an unknown id is refused; otherwise only the status (and update time) changes. */
    method UpdateDriverMonitoringStatus(id: int, newStatus: MonitoringStatus, now: int) returns (r: Result<Driver, ServiceError>)
      requires Valid()
      modifies if id in drivers then {drivers[id]} else {}
      ensures drivers == old(drivers) && Valid()
      ensures id !in drivers ==> r == Err(NotFound(id))
      ensures id in drivers ==> r == Ok(drivers[id]) && StatusOnlyChanged(drivers[id], newStatus, now)
    {
      if id !in drivers {
        return Err(NotFound(id));
      }
      var driver := drivers[id];
      driver.UpdateMonitoringStatus(newStatus, now);
      return Ok(driver);
    }

    /** `MonitoringService.start_monitoring_session`: the driver goes to "In Corso". */
    method StartMonitoringSession(id: int, now: int) returns (r: Result<(), ServiceError>)
      requires Valid()
      modifies if id in drivers then {drivers[id]} else {}
      ensures drivers == old(drivers) && Valid()
      ensures id !in drivers ==> r == Err(NotFound(id))
      ensures id in drivers ==> r.Ok? && StatusOnlyChanged(drivers[id], Monitoring, now)
    {
      if id !in drivers {
        return Err(NotFound(id));
      }
      var driver := drivers[id];
      driver.UpdateMonitoringStatus(Monitoring, now);
      return Ok(());
    }

    /** `MonitoringService.stop_monitoring_session`: the driver goes back to "Online". */
    method StopMonitoringSession(id: int, now: int) returns (r: Result<(), ServiceError>)
      requires Valid()
      modifies if id in drivers then {drivers[id]} else {}
      ensures drivers == old(drivers) && Valid()
      ensures id !in drivers ==> r == Err(NotFound(id))
      ensures id in drivers ==> r.Ok? && StatusOnlyChanged(drivers[id], Online, now)
    {
      if id !in drivers {
        return Err(NotFound(id));
      }
      var driver := drivers[id];
      driver.UpdateMonitoringStatus(Online, now);
      return Ok(());
    }

    /**
     * `ClassificationService.classify_driver` with the random choice and
     * confidence as parameters: an unknown id and a driver without a
     * simulation file are refused; otherwise the classification is set and
     * two history records are added, the one `update_classification` makes
     * (no confidence) and the service's own (with the confidence).
     */
    method ClassifyDriver(id: int, choice: Classification, confidence: real, now: int) returns (r: Result<(Classification, real), ServiceError>)
      requires Valid()
      requires choice != Unclassified && 0.75 <= confidence <= 0.95
      modifies this, if id in drivers then {drivers[id]} else {}
      ensures drivers == old(drivers) && nextId == old(nextId) && Valid()
      ensures id !in drivers ==> r == Err(NotFound(id)) && history == old(history)
      ensures id in drivers && (old(drivers[id].simulationFile) == None || old(drivers[id].simulationFile) == Some([])) ==>
                r == Err(NoSimulationFile) && history == old(history) && drivers[id].classification == old(drivers[id].classification)
      ensures r.Ok? ==> id in drivers && r.value == (choice, confidence)
                        && drivers[id].classification == choice
                        && history == old(history) + [ClassificationResult(id, Some(old(drivers[id].classification)), choice, None),
                                                      ClassificationResult(id, Some(old(drivers[id].classification)), choice, Some(confidence))]
      ensures id in drivers && old(drivers[id].simulationFile).Some? && old(drivers[id].simulationFile).value != [] ==> r.Ok?
      ensures r.Ok? ==> drivers[id].updatedAt == Some(now)
      ensures r.Err? && id in drivers ==> drivers[id].classification == old(drivers[id].classification)
                                          && drivers[id].updatedAt == old(drivers[id].updatedAt)
      ensures id in drivers ==> drivers[id].firstName == old(drivers[id].firstName) && drivers[id].lastName == old(drivers[id].lastName)
                                && drivers[id].monitoringStatus == old(drivers[id].monitoringStatus)
                                && drivers[id].simulationFile == old(drivers[id].simulationFile) && drivers[id].id == old(drivers[id].id)
    {
      if id !in drivers {
        return Err(NotFound(id));
      }
      var driver := drivers[id];
      if driver.simulationFile == None || driver.simulationFile == Some([]) {
        return Err(NoSimulationFile);
      }
      var oldClassification := driver.classification;
      var record := driver.UpdateClassification(choice, now);
      history := history + [record];
      var result := ClassificationResult(id, Some(oldClassification), choice, Some(confidence));
      history := history + [result];
      return Ok((choice, confidence));
    }
  }

  /** Only the monitoring status and the update time differ from before. */
  twostate predicate StatusOnlyChanged(d: Driver, s: MonitoringStatus, now: int)
    reads d
  {
    && d.monitoringStatus == s && d.updatedAt == Some(now)
    && d.firstName == old(d.firstName) && d.lastName == old(d.lastName)
    && d.classification == old(d.classification) && d.simulationFile == old(d.simulationFile) && d.id == old(d.id)
  }

  /** The fields a rename does not touch keep their values. */
  twostate predicate Unchanged(d: Driver)
    reads d
  {
    && d.id == old(d.id) && d.classification == old(d.classification) && d.monitoringStatus == old(d.monitoringStatus)
    && d.simulationFile == old(d.simulationFile) && d.updatedAt == old(d.updatedAt)
  }

  /** The history without the records of driver `id`, in order. */
  function WithoutDriver(h: seq<ClassificationResult>, id: int): (r: seq<ClassificationResult>)
    ensures |r| <= |h|
    ensures forall x :: x in r <==> x in h && x.driverId != id
  {
    if h == [] then []
    else if h[0].driverId == id then WithoutDriver(h[1..], id)
    else [h[0]] + WithoutDriver(h[1..], id)
  }
}

=== FILE: text.dfy ===
/** Python string primitives the modelled code relies on: `str.isspace`, `str.strip`, `str.lower`. */
module Text {

  /** The characters Python's `str.isspace` (and the regex class `\s`) accept. */
  predicate IsWhitespace(c: char) {
    var n := c as int;
    n == 0x20 || 0x09 <= n <= 0x0D || 0x1C <= n <= 0x1F || n == 0x85 || n == 0xA0
    || n == 0x1680 || 0x2000 <= n <= 0x200A || n == 0x2028 || n == 0x2029
    || n == 0x202F || n == 0x205F || n == 0x3000
  }

  function TrimLeft(s: string): (r: string)
    ensures |r| <= |s| && r == s[|s| - |r|..]
    ensures r != [] ==> !IsWhitespace(r[0])
    ensures forall i :: 0 <= i < |s| - |r| ==> IsWhitespace(s[i])
  {
    if s != [] && IsWhitespace(s[0]) then TrimLeft(s[1..]) else s
  }

  function TrimRight(s: string): (r: string)
    ensures |r| <= |s| && r == s[..|r|]
    ensures r != [] ==> !IsWhitespace(r[|r| - 1])
    ensures forall i :: |r| <= i < |s| ==> IsWhitespace(s[i])
  {
    if s != [] && IsWhitespace(s[|s| - 1]) then TrimRight(s[..|s| - 1]) else s
  }

  /** How many whitespace characters `s.strip()` removes from the front. */
  function LeadingSpaces(s: string): (n: nat)
    ensures n <= |s|
  {
    |s| - |TrimLeft(s)|
  }

  /** Python's `s.strip()`: leading and trailing whitespace removed. */
  function Strip(s: string): (r: string)
    ensures LeadingSpaces(s) + |r| <= |s|
    ensures r == s[LeadingSpaces(s)..LeadingSpaces(s) + |r|]
    ensures r != [] ==> !IsWhitespace(r[0]) && !IsWhitespace(r[|r| - 1])
    ensures forall i :: 0 <= i < LeadingSpaces(s) ==> IsWhitespace(s[i])
    ensures forall i :: LeadingSpaces(s) + |r| <= i < |s| ==> IsWhitespace(s[i])
  {
    var l := TrimLeft(s);
    var r := TrimRight(l);
    assert forall i :: |r| <= i < |l| ==> s[|s| - |l| + i] == l[i];
    r
  }

  /** A string made only of whitespace strips to the empty string, and only such a string does. */
  lemma StripEmptyIff(s: string)
    ensures Strip(s) == [] <==> forall i :: 0 <= i < |s| ==> IsWhitespace(s[i])
  {
    var l := TrimLeft(s);
    if Strip(s) == [] {
      assert TrimRight(l) == [];
      assert l == [];
    } else {
      assert Strip(s)[0] in s;
    }
  }

  /** `str.lower()` on ASCII letters; every other character is left as it is. */
  function LowerAscii(c: char): (r: char)
    ensures 'A' <= c <= 'Z' ==> 'a' <= r <= 'z'
    ensures !('A' <= c <= 'Z') ==> r == c
  {
    if 'A' <= c <= 'Z' then (c as int + 32) as char else c
  }

  function Lower(s: string): (r: string)
    ensures |r| == |s|
    ensures forall i :: 0 <= i < |s| ==> r[i] == LowerAscii(s[i])
  {
    seq(|s|, i requires 0 <= i < |s| => LowerAscii(s[i]))
  }

  predicate StartsWith(s: string, prefix: string) {
    |prefix| <= |s| && s[..|prefix|] == prefix
  }

  /** The index of the first occurrence of `c`, if any. */
  function IndexOf(s: string, c: char): (r: int)
    ensures -1 <= r < |s|
    ensures r == -1 <==> c !in s
    ensures r >= 0 ==> s[r] == c && c !in s[..r]
  {
    if s == [] then -1
    else if s[0] == c then 0
    else
      var k := IndexOf(s[1..], c);
      if k == -1 then -1 else k + 1
  }

  /** The index of the last occurrence of `c`, if any. */
  function LastIndexOf(s: string, c: char): (r: int)
    ensures -1 <= r < |s|
    ensures r == -1 <==> c !in s
    ensures r >= 0 ==> s[r] == c && c !in s[r + 1..]
    decreases |s|
  {
    if s == [] then -1
    else if s[|s| - 1] == c then |s| - 1
    else LastIndexOf(s[..|s| - 1], c)
  }
}

=== FILE: utils.dfy ===
/**
 * The helpers of app/utils.py that the driver screens and uploads rely on:
 * name, size and file-name validation, the file-size and duration
 * formatters, the classification badge table, input sanitising, and the
 * JSON response shapes.
 */
module Utils {
  import opened Wrappers
  import opened Numeric
  import opened Text
  import Config

  // ---------------------------------------------------------------------
  // ValidationUtils

  /** One character of `[a-zA-ZÀ-ÿ\s'-]`. */
  predicate NameChar(c: char) {
    || 'a' <= c <= 'z' || 'A' <= c <= 'Z' || '\U{C0}' <= c <= '\U{FF}'
    || IsWhitespace(c) || c == '\'' || c == '-'
  }

  /** `re.match(r"^[a-zA-ZÀ-ÿ\s'-]+$", s)`: one or more name characters and nothing else. */
  function MatchesNamePattern(s: string): (ok: bool)
    ensures ok <==> s != [] && forall i :: 0 <= i < |s| ==> NameChar(s[i])
  {
    s != [] && NameChar(s[0]) && (|s| == 1 || MatchesNamePattern(s[1..]))
  }

  /**
   * `ValidationUtils.validate_name`: false for an empty name or one shorter
   * than two characters once stripped; otherwise whether every stripped
   * character is a letter, an accented Latin-1 letter, whitespace, an
   * apostrophe or a hyphen.
   */
  function ValidateName(name: string): (ok: bool)
    ensures name == [] ==> !ok
    ensures ok <==> |Strip(name)| >= 2 && forall i :: 0 <= i < |Strip(name)| ==> NameChar(Strip(name)[i])
  {
    if name == [] || |Strip(name)| < 2 then false
    else MatchesNamePattern(Strip(name))
  }

  /** `validate_file_size`'s default limit in megabytes. */
  const DefaultMaxSizeMb: int := 16

  /** `ValidationUtils.validate_file_size`. */
  function ValidateFileSize(fileSize: int, maxSizeMb: int): bool {
    fileSize <= maxSizeMb * 1024 * 1024
  }

  /**
   * With the default limit a size passes exactly when it fits the upload
   * cap, and a smaller file or a larger limit never turns a pass into a fail.
   */
  lemma FileSizeLimit(fileSize: int, smaller: int, maxSizeMb: int, larger: int)
    requires smaller <= fileSize && maxSizeMb <= larger
    ensures ValidateFileSize(fileSize, DefaultMaxSizeMb) <==> fileSize <= Config.MaxContentLength
    ensures ValidateFileSize(fileSize, maxSizeMb) ==> ValidateFileSize(smaller, larger)
  {
  }

  /** The characters `re.sub(r'[<>:"/\\|?*]', '_', filename)` replaces. */
  predicate UnsafeFileChar(c: char) {
    c == '<' || c == '>' || c == ':' || c == '"' || c == '/' || c == '\\' || c == '|' || c == '?' || c == '*'
  }

  function ReplaceUnsafe(s: string): (r: string)
    ensures |r| == |s|
    ensures forall i :: 0 <= i < |s| ==> !UnsafeFileChar(r[i]) && (UnsafeFileChar(s[i]) || r[i] == s[i])
  {
    seq(|s|, i requires 0 <= i < |s| => if UnsafeFileChar(s[i]) then '_' else s[i])
  }

  predicate AllDots(s: string) {
    forall i :: 0 <= i < |s| ==> s[i] == '.'
  }

  /**
   * `os.path.splitext` on a name without separators: split before the last
   * '.', unless everything before that dot is dots.
   */
  function SplitExt(p: string): (parts: (string, string))
    ensures parts.0 + parts.1 == p
    ensures parts.1 == [] || (parts.1[0] == '.' && '.' !in parts.1[1..])
    ensures parts.1 != [] ==> !AllDots(parts.0)
    ensures parts.1 != [] <==> exists i, j :: 0 <= i < j < |p| && p[i] != '.' && p[j] == '.'
  {
    var dot := LastIndexOf(p, '.');
    LastDotAfterNonDot(p);
    if dot > 0 && !AllDots(p[..dot]) then
      assert p[..dot] + p[dot..] == p;
      (p[..dot], p[dot..])
    else (p, [])
  }

  /** Some non-dot comes before some '.' exactly when the last '.' has a non-dot before it. */
  lemma LastDotAfterNonDot(p: string)
    ensures var dot := LastIndexOf(p, '.');
            (exists i, j :: 0 <= i < j < |p| && p[i] != '.' && p[j] == '.') <==> dot > 0 && !AllDots(p[..dot])
  {
    var dot := LastIndexOf(p, '.');
    if exists i, j :: 0 <= i < j < |p| && p[i] != '.' && p[j] == '.' {
      var i, j :| 0 <= i < j < |p| && p[i] != '.' && p[j] == '.';
      NonDotBeforeLastDot(p, i, j);
    }
    if dot > 0 && !AllDots(p[..dot]) {
      var i :| 0 <= i < dot && p[..dot][i] != '.';
      assert p[i] != '.' && p[dot] == '.';
    }
  }

  lemma NonDotBeforeLastDot(p: string, i: int, j: int)
    requires 0 <= i < j < |p| && p[i] != '.' && p[j] == '.'
    ensures LastIndexOf(p, '.') >= j && !AllDots(p[..LastIndexOf(p, '.')])
  {
    var dot := LastIndexOf(p, '.');
    assert p[..dot][i] != '.';
  }

  /** The longest stem `sanitize_filename` keeps. */
  const MaxStemLength := 200

  /**
   * `ValidationUtils.sanitize_filename`: unsafe characters become '_', and
   * the stem is cut to 200 characters while the extension is kept whole.
   */
  function SanitizeFilename(filename: string): (r: string)
    ensures forall i :: 0 <= i < |r| ==> !UnsafeFileChar(r[i])
  {
    var (stem, ext) := SplitExt(ReplaceUnsafe(filename));
    var name := if |stem| > MaxStemLength then stem[..MaxStemLength] else stem;
    SafeParts(ReplaceUnsafe(filename));
    name + ext
  }

  lemma SafeParts(p: string)
    requires forall i :: 0 <= i < |p| ==> !UnsafeFileChar(p[i])
    ensures var (stem, ext) := SplitExt(p);
            (forall i :: 0 <= i < |stem| ==> !UnsafeFileChar(stem[i]))
            && (forall i :: 0 <= i < |ext| ==> !UnsafeFileChar(ext[i]))
  {
    var (stem, ext) := SplitExt(p);
    assert forall i :: 0 <= i < |stem| ==> stem[i] == p[i];
    assert forall i :: 0 <= i < |ext| ==> ext[i] == p[|stem| + i];
  }

  /** The output is the first min(|stem|, 200) characters of the stem followed by the whole extension. */
  lemma SanitizeFilenameKeepsExtension(filename: string)
    ensures var (stem, ext) := SplitExt(ReplaceUnsafe(filename));
            var r := SanitizeFilename(filename);
            var n := if |stem| > MaxStemLength then MaxStemLength else |stem|;
            |r| == n + |ext| && r[n..] == ext && r[..n] == stem[..n]
  {
  }

  /** A safe name with a stem of at most 200 characters comes back unchanged. */
  lemma SanitizeSafeFilename(filename: string)
    requires forall i :: 0 <= i < |filename| ==> !UnsafeFileChar(filename[i])
    requires |SplitExt(filename).0| <= MaxStemLength
    ensures SanitizeFilename(filename) == filename
  {
    assert ReplaceUnsafe(filename) == filename;
  }

  // ---------------------------------------------------------------------
  // FormatUtils

  /** What `format_file_size` prints: "0 B", or a value and a unit (the `.1f` rendering is not modelled). */
  datatype SizeText = ZeroBytes | Scaled(value: real, unit: string)

  const Units: seq<string> := ["B", "KB", "MB", "GB"]

  function Pow1024(k: nat): (p: real)
    ensures p >= 1.0
  {
    if k == 0 then 1.0 else 1024.0 * Pow1024(k - 1)
  }

  /**
   * `FormatUtils.format_file_size`: divide by 1024 while the size is at
   * least 1024 and a larger unit remains. The value times 1024 to the unit
   * index is the size; below GB the value is under 1024, and above B it is
   * at least 1.
   */
  method FormatFileSize(sizeBytes: int) returns (r: SizeText)
    ensures r.ZeroBytes? <==> sizeBytes == 0
    ensures r.Scaled? ==> exists k :: 0 <= k < |Units| && r.unit == Units[k]
                              && r.value * Pow1024(k) == sizeBytes as real
                              && (k < |Units| - 1 ==> r.value < 1024.0)
                              && (k > 0 ==> r.value >= 1.0)
  {
    if sizeBytes == 0 {
      return ZeroBytes;
    }
    var unitIndex := 0;
    var size := sizeBytes as real;
    while size >= 1024.0 && unitIndex < |Units| - 1
      invariant 0 <= unitIndex < |Units|
      invariant size * Pow1024(unitIndex) == sizeBytes as real
      invariant unitIndex > 0 ==> size >= 1.0
      decreases |Units| - unitIndex
    {
      size := size / 1024.0;
      unitIndex := unitIndex + 1;
    }
    r := Scaled(size, Units[unitIndex]);
  }

  /** The three shapes of `format_duration`: "Ns", "Mm Ss", "Hh Mm". */
  datatype Duration = Seconds(s: int) | MinutesSeconds(m: int, s: int) | HoursMinutes(h: int, m: int)

  /** Python's `x // d` and `x % d` on floats, for a positive divisor: floor division and its non-negative remainder. */
  function FloorDiv(x: real, d: real): int
    requires d > 0.0
  {
    (x / d).Floor
  }

  function FloorMod(x: real, d: real): (r: real)
    requires d > 0.0
    ensures 0.0 <= r < d
    ensures r == x - d * FloorDiv(x, d) as real
  {
    RemainderBounds(x, d);
    x - d * (x / d).Floor as real
  }

  lemma RemainderBounds(x: real, d: real)
    requires d > 0.0
    ensures 0.0 <= x - d * (x / d).Floor as real < d
  {
    var q := x / d;
    var n := q.Floor as real;
    var f := q - n;
    assert 0.0 <= f < 1.0;
    assert x == d * q;
    assert x - d * n == d * f by {
      assert d * q - d * n == d * (q - n);
    }
    ScaleUnit(d, f);
    assert 0.0 <= x - d * n < d;
  }

  lemma ScaleUnit(d: real, f: real)
    requires d > 0.0 && 0.0 <= f < 1.0
    ensures 0.0 <= d * f < d
  {
    assert d - d * f == d * (1.0 - f);
  }

  /**
   * `FormatUtils.format_duration`: whole seconds below a minute (truncated
   * toward zero), minutes and seconds below an hour, hours and minutes
   * beyond; the parts add up to the duration, rounded down.
   */
  function FormatDuration(seconds: real): (d: Duration)
    ensures seconds < 60.0 ==> d == Seconds(Trunc(seconds))
    ensures 60.0 <= seconds < 3600.0 ==>
              (d.MinutesSeconds? && 1 <= d.m < 60 && 0 <= d.s < 60
               && (60 * d.m + d.s) as real <= seconds < (60 * d.m + d.s + 1) as real)
    ensures seconds >= 3600.0 ==>
              (d.HoursMinutes? && d.h >= 1 && 0 <= d.m < 60
               && (3600 * d.h + 60 * d.m) as real <= seconds < (3600 * d.h + 60 * d.m + 60) as real)
  {
    if seconds < 60.0 then Seconds(Trunc(seconds))
    else if seconds < 3600.0 then
      var minutes := FloorDiv(seconds, 60.0);
      var remaining := Trunc(FloorMod(seconds, 60.0));
      MinuteParts(seconds);
      MinutesSeconds(minutes, remaining)
    else
      var hours := FloorDiv(seconds, 3600.0);
      var minutes := FloorDiv(FloorMod(seconds, 3600.0), 60.0);
      HourParts(seconds);
      HoursMinutes(hours, minutes)
  }

  lemma MinuteParts(seconds: real)
    requires 60.0 <= seconds < 3600.0
    ensures var m := FloorDiv(seconds, 60.0);
            var s := Trunc(FloorMod(seconds, 60.0));
            1 <= m < 60 && 0 <= s < 60 && (60 * m + s) as real <= seconds < (60 * m + s + 1) as real
  {
    var q := seconds / 60.0;
    assert q.Floor as real <= q < q.Floor as real + 1.0;
    assert 1.0 <= q < 60.0;
  }

  lemma HourParts(seconds: real)
    requires seconds >= 3600.0
    ensures var h := FloorDiv(seconds, 3600.0);
            var m := FloorDiv(FloorMod(seconds, 3600.0), 60.0);
            h >= 1 && 0 <= m < 60 && (3600 * h + 60 * m) as real <= seconds < (3600 * h + 60 * m + 60) as real
  {
    var q := seconds / 3600.0;
    assert q.Floor as real <= q < q.Floor as real + 1.0;
    assert q >= 1.0;
    var rest := FloorMod(seconds, 3600.0);
    var p := rest / 60.0;
    assert p.Floor as real <= p < p.Floor as real + 1.0;
    assert 0.0 <= p < 60.0;
  }

  /** A badge: the CSS class and the colour of a classification. */
  datatype Style = Style(cssClass: string, color: string)

  const UnknownStyle := Style("unknown", "#6B7280")

  /** `FormatUtils.format_classification`: the fixed table, and the grey "unknown" badge for anything else. */
  function FormatClassification(value: string): (s: Style)
    ensures value !in {"Non Classificato", "Principiante", "Efficiente", "Esperto"} ==> s == UnknownStyle
  {
    if value == "Non Classificato" then Style("unclassified", "#6B7280")
    else if value == "Principiante" then Style("beginner", "#F59E0B")
    else if value == "Efficiente" then Style("efficient", "#3B82F6")
    else if value == "Esperto" then Style("expert", "#10B981")
    else UnknownStyle
  }

  /** The four known classifications get four different badges, none of them "unknown". */
  lemma KnownClassificationsDistinct(a: string, b: string)
    requires a in {"Non Classificato", "Principiante", "Efficiente", "Esperto"}
    requires b in {"Non Classificato", "Principiante", "Efficiente", "Esperto"}
    ensures FormatClassification(a).cssClass != UnknownStyle.cssClass
    ensures FormatClassification(a) == FormatClassification(b) ==> a == b
  {
  }

  // ---------------------------------------------------------------------
  // SecurityUtils

  /** `re.sub(r'<[^>]*>', '', s)`: each '<' with a later '>' is dropped together with everything up to the first such '>'. */
  function RemoveTags(s: string): (r: string)
    ensures |r| <= |s|
    decreases |s|
  {
    if s == [] then []
    else if s[0] == '<' && '>' in s[1..] then RemoveTags(s[IndexOf(s[1..], '>') + 2..])
    else [s[0]] + RemoveTags(s[1..])
  }

  /** No '<' is followed, anywhere later, by a '>'. */
  predicate NoTag(s: string) {
    forall i, j :: 0 <= i < j < |s| && s[i] == '<' ==> s[j] != '>'
  }

  /** `re.sub(r'[\x00-\x1f\x7f]', '', s)`. */
  predicate ControlChar(c: char) { c < ' ' || c == '\U{7F}' }

  function RemoveControl(s: string): (r: string)
    ensures |r| <= |s|
    ensures forall i :: 0 <= i < |r| ==> !ControlChar(r[i])
    decreases |s|
  {
    if s == [] then []
    else if ControlChar(s[0]) then RemoveControl(s[1..])
    else [s[0]] + RemoveControl(s[1..])
  }

  /** `SecurityUtils.sanitize_input`'s default length limit. */
  const DefaultMaxInputLength := 255

  /** `SecurityUtils.sanitize_input`: tags removed, then control characters, then stripped and cut to `maxLength` (a Python slice). */
  function SanitizeInput(input: string, maxLength: int): (r: string)
    ensures input == [] ==> r == []
    ensures maxLength >= 0 ==> |r| <= maxLength
    ensures forall i :: 0 <= i < |r| ==> !ControlChar(r[i])
  {
    if input == [] then []
    else
      var stripped := Strip(RemoveControl(RemoveTags(input)));
      stripped[..SliceIndex(maxLength, |stripped|)]
  }

  /** After `RemoveTags` a '<' is never followed by a '>'. */
  lemma {:induction false} RemoveTagsLeavesNoTag(s: string)
    ensures NoTag(RemoveTags(s))
    ensures '>' !in s ==> '>' !in RemoveTags(s)
    decreases |s|
  {
    if s != [] {
      if s[0] == '<' && '>' in s[1..] {
        RemoveTagsLeavesNoTag(s[IndexOf(s[1..], '>') + 2..]);
      } else {
        var rest := RemoveTags(s[1..]);
        RemoveTagsLeavesNoTag(s[1..]);
        if s[0] == '<' {
          assert '>' !in s[1..];
        }
      }
    }
  }

  /** Dropping characters never puts a '>' after a '<'. */
  lemma {:induction false} RemoveControlKeepsNoTag(s: string)
    requires NoTag(s)
    ensures NoTag(RemoveControl(s))
    ensures forall c :: c in RemoveControl(s) ==> c in s
    decreases |s|
  {
    if s != [] {
      RemoveControlKeepsNoTag(s[1..]);
      var rest := RemoveControl(s[1..]);
      if !ControlChar(s[0]) && s[0] == '<' {
        assert '>' !in s[1..];
      }
    }
  }

  /** The sanitised text holds no '<' followed later by a '>'. */
  lemma SanitizeInputLeavesNoTag(input: string, maxLength: int)
    ensures NoTag(SanitizeInput(input, maxLength))
  {
    if input != [] {
      var t := RemoveTags(input);
      RemoveTagsLeavesNoTag(input);
      RemoveControlKeepsNoTag(t);
      var c := RemoveControl(t);
      var k := LeadingSpaces(c);
      var stripped := Strip(c);
      NoTagSlice(c, k, k + |stripped|);
      NoTagSlice(stripped, 0, SliceIndex(maxLength, |stripped|));
    }
  }

  lemma NoTagSlice(s: string, a: int, b: int)
    requires 0 <= a <= b <= |s| && NoTag(s)
    ensures NoTag(s[a..b])
  {
    var t := s[a..b];
    forall i, j | 0 <= i < j < |t| && t[i] == '<'
      ensures t[j] != '>'
    {
      assert t[i] == s[a + i] && t[j] == s[a + j];
    }
  }

  /** Text with no '<', no control character and no surrounding whitespace, within the limit, comes back unchanged. */
  lemma SanitizeCleanInput(input: string, maxLength: int)
    requires '<' !in input && forall i :: 0 <= i < |input| ==> !ControlChar(input[i])
    requires input == [] || (!IsWhitespace(input[0]) && !IsWhitespace(input[|input| - 1]))
    requires |input| <= maxLength
    ensures SanitizeInput(input, maxLength) == input
  {
    if input != [] {
      RemoveTagsWithoutOpen(input);
      RemoveControlWithoutControl(input);
      StripUnpadded(input);
    }
  }

  lemma {:induction false} RemoveTagsWithoutOpen(s: string)
    requires '<' !in s
    ensures RemoveTags(s) == s
    decreases |s|
  {
    if s != [] {
      RemoveTagsWithoutOpen(s[1..]);
    }
  }

  lemma {:induction false} RemoveControlWithoutControl(s: string)
    requires forall i :: 0 <= i < |s| ==> !ControlChar(s[i])
    ensures RemoveControl(s) == s
    decreases |s|
  {
    if s != [] {
      RemoveControlWithoutControl(s[1..]);
    }
  }

  /** Text before the first '<' is kept as it is, and tag removal goes on after it. */
  lemma {:induction false} RemoveTagsKeepsText(a: string, b: string)
    requires '<' !in a
    ensures RemoveTags(a + b) == a + RemoveTags(b)
    decreases |a|
  {
    if a != [] {
      RemoveTagsKeepsText(a[1..], b);
      RemoveTagsPlainStep(a + b);
      assert (a + b)[1..] == a[1..] + b;
      assert [a[0]] + (a[1..] + RemoveTags(b)) == a + RemoveTags(b);
    } else {
      assert a + b == b;
    }
  }

  lemma RemoveTagsPlainStep(s: string)
    requires s != [] && s[0] != '<'
    ensures RemoveTags(s) == [s[0]] + RemoveTags(s[1..])
  {
  }

  /** A '<', text without '>', then '>': the whole tag goes and removal goes on after it. */
  lemma RemoveTagsDropsTag(t: string, b: string)
    requires '>' !in t
    ensures RemoveTags("<" + t + ">" + b) == RemoveTags(b)
  {
    var s := "<" + t + ">" + b;
    assert s[1..] == t + ">" + b;
    assert s[1..][|t|] == '>';
    IndexOfPrefixFree(t, ">" + b, '>');
    assert s[|t| + 2..] == b;
  }

  lemma {:induction false} IndexOfPrefixFree(t: string, b: string, c: char)
    requires c !in t && b != [] && b[0] == c
    ensures IndexOf(t + b, c) == |t|
  {
    var s := t + b;
    var r := IndexOf(s, c);
    assert s[|t|] == c;
  }

  /** A '<' with no '>' anywhere after it is kept, like all that follows it. */
  lemma {:induction false} RemoveTagsWithoutClose(s: string)
    requires '>' !in s
    ensures RemoveTags(s) == s
    decreases |s|
  {
    if s != [] {
      RemoveTagsWithoutClose(s[1..]);
    }
  }

  /** Control characters are removed one by one: removal distributes over concatenation. */
  lemma {:induction false} RemoveControlAppend(a: string, b: string)
    ensures RemoveControl(a + b) == RemoveControl(a) + RemoveControl(b)
    decreases |a|
  {
    if a != [] {
      RemoveControlAppend(a[1..], b);
      assert (a + b)[0] == a[0];
      assert (a + b)[1..] == a[1..] + b;
      if ControlChar(a[0]) {
        assert RemoveControl(a + b) == RemoveControl(a[1..] + b);
        assert RemoveControl(a) == RemoveControl(a[1..]);
      } else {
        assert RemoveControl(a + b) == [a[0]] + RemoveControl(a[1..] + b);
        assert RemoveControl(a) == [a[0]] + RemoveControl(a[1..]);
        assert [a[0]] + (RemoveControl(a[1..]) + RemoveControl(b)) == ([a[0]] + RemoveControl(a[1..])) + RemoveControl(b);
      }
    } else {
      assert a + b == b;
    }
  }

  /** A single character is dropped exactly when it is a control character. */
  lemma RemoveControlChar(c: char)
    ensures RemoveControl([c]) == if ControlChar(c) then [] else [c]
  {
  }

  lemma StripUnpadded(s: string)
    requires s != [] && !IsWhitespace(s[0]) && !IsWhitespace(s[|s| - 1])
    ensures Strip(s) == s
  {
    assert TrimLeft(s) == s;
  }

  // ---------------------------------------------------------------------
  // ResponseUtils

  /** A value in a JSON response. */
  datatype Json = JBool(b: bool) | JInt(i: int) | JString(s: string) | JData(id: nat)

  /** `ResponseUtils.success_response`: success and status always, 'data' only when given, 'message' only when non-empty. */
  method SuccessResponse(data: Option<Json>, message: string, statusCode: int) returns (response: map<string, Json>)
    ensures "success" in response && "status_code" in response
    ensures response["success"] == JBool(true) && response["status_code"] == JInt(statusCode)
    ensures "data" in response <==> data.Some?
    ensures data.Some? ==> response["data"] == data.value
    ensures "message" in response <==> message != []
    ensures message != [] ==> response["message"] == JString(message)
    ensures forall k :: k in response ==> k in {"success", "status_code", "data", "message"}
  {
    response := map["success" := JBool(true), "status_code" := JInt(statusCode)];
    if data.Some? {
      response := response["data" := data.value];
    }
    if message != [] {
      response := response["message" := JString(message)];
    }
  }

  /** `ResponseUtils.error_response`: failure, the error text and the status, plus 'details' only when given. */
  method ErrorResponse(error: string, statusCode: int, details: Option<Json>) returns (response: map<string, Json>)
    ensures "success" in response && "error" in response && "status_code" in response
    ensures response["success"] == JBool(false) && response["error"] == JString(error)
    ensures response["status_code"] == JInt(statusCode)
    ensures "details" in response <==> details.Some?
    ensures details.Some? ==> response["details"] == details.value
    ensures forall k :: k in response ==> k in {"success", "error", "status_code", "details"}
  {
    response := map["success" := JBool(false), "error" := JString(error), "status_code" := JInt(statusCode)];
    if details.Some? {
      response := response["details" := details.value];
    }
  }
}

=== FILE: wrappers.dfy ===
/** Option and Result, the error signals the modelled code returns instead of raising. */
module Wrappers {

  /** Python's `None` versus a present value. */
  datatype Option<+T> = None | Some(value: T)

  /** A value, or the error a Python function would have raised. */
  datatype Result<+T, +E> = Ok(value: T) | Err(error: E)
}
